=== FILE: README.md ===
# EX-IOExpander firmware core in Dafny

EX-IOExpander turns a small microcontroller board into an I/O expander for a
DCC-EX command station. The command station reaches it over I2C. It sends
command frames (configure, digital write, pullup, analogue enable, PWM write).
It then polls for replies: the pin counts, the analogue pin map, the packed
digital and analogue state buffers, and the firmware version. A USB serial
console on the board offers diagnostics, pin test modes and a stored I2C
address. The board also has two software PWM drivers: SuperPin and the AVR
timer dimmer.

This project models that core as pure functions over immutable state:

- `Bytes`: machine integers, Arduino's `bitRead`/`bitSet`/`bitClear`, the
  `uint8_t` cast, and little-endian pairs.
- `PinMap`: the board's pin table and its capability bits.
- `PinIo`: the pin records, start-up counting, `initialisePins`,
  `enableAnalogue` and `writeAnalogue`.
- `Globals`: the firmware's shared state and the state after start-up.
- `I2c`: `receiveEvent` and `requestEvent`.
- `Servo`: one animation step of `updatePosition` and Arduino's `map`.
- `SuperPin`: the generator chain, `setPattern`, `set`, `tick` and `loop`.
- `Dimmer`: the AVR `EXIODimmer` slots and the timer interrupt.
- `TestModes`: the four console pin tests and the servo-test guard.
- `DeviceStore`: the EEPROM address record.
- `SerialConsole`: the `<...>` framing loop and the console commands.
- `Display`: `setVersion` and the decoding behind the diagnostic pin display.

Some calls reach outside the core: `pinMode`, `digitalWrite`, `analogWrite`,
and the diagnostics a refusal prints. The model returns these as `Event`
values next to the new state, so contracts can say which pins are driven
and when.

The model follows the code, not its comments, in these places:

- The EEPROM address is read from and written to cell 5. The comment at
  device_functions.cpp:35 says "address at 6"; the code uses 5.
- The pin-mode values `MODE_UNUSED`, `MODE_DIGITAL`, `MODE_ANALOGUE` and
  `MODE_PWM` are not defined in the modelled files. The model uses 0 (the
  value `initialisePins` writes), 2, 3 and 4. They are kept distinct from 1
  so that one case stays visible: the output test stores the capability bit
  index `DIGITAL_OUTPUT` (1) as a pin's mode (test_functions.cpp:98).
- The opcodes EXIOINITA, EXIOPINS and EXIOWRAN are not defined in the
  modelled files. The model uses 0xE8, 0xE9 and 0xEA, which are distinct
  from the opcodes at SupportedDevices.h:176-183.

## Model

| member | source | states |
|---|---|---|
| Bytes.BitWrite | i2c_functions.cpp:110-114 | `bitSet`/`bitClear`: afterwards the chosen bit reads as the requested level and the other seven bits read as before |
| Bytes.BitWriteIdempotent | i2c_functions.cpp:110-114 | writing a bit a second time with the same level gives the same byte |
| Bytes.LowByte | device_functions.cpp:75 | storing an `int16_t` in an EEPROM cell keeps a value that differs from it by a multiple of 256 |
| Bytes.LittleEndian16 | i2c_functions.cpp:142 | the 16-bit value built from two bytes has the first as its low byte and the second as its high byte |
| PinMap.CountAll | pin_io_functions.cpp:17-19 | a table whose every pin is of a class counts all of its pins in that class |
| PinIo.SetupPinDetails | pin_io_functions.cpp:12-28 | the loop counts the analogue, digital and PWM pins among the first `numPins` table entries; two analogue bytes per analogue pin; digital bytes are the digital count divided by 8, rounded down as written |
| PinIo.DigitalBufferAsWrittenTooShort | pin_io_functions.cpp:25 | for a Mega-shaped table of 62 digital-capable pins, the rounded-down buffer has 7 bytes, while output-capable pin 61 needs byte 7 |
| PinIo.DigitalBufferCoversDigitalPins | pin_io_functions.cpp:25 | with the size rounded up, every digital-capable pin's byte lies inside the buffer when digital pins come first in the table |
| PinIo.InitialisePins | pin_io_functions.cpp:33-51 | every table entry is disabled, has mode 0 and no pullup, and is an input exactly when it can be a digital or analogue input; both buffers are zeroed and keep their sizes |
| PinIo.ResetIsUnique | pin_io_functions.cpp:33-51 | the reset state depends only on the table and the buffer sizes |
| PinIo.InitialisePinsIdempotent | pin_io_functions.cpp:33-51 | resetting the pins twice is the same as resetting them once |
| PinIo.EnableAnalogue | pin_io_functions.cpp:63-79 | an analogue-capable pin always becomes an enabled analogue input; the in-use error is reported exactly when the pin was a claimed output of another mode, yet the claim still goes ahead; an incapable pin is refused and left alone; no other pin changes |
| PinIo.EnableAnalogueIdempotent | pin_io_functions.cpp:63-79 | enabling a pin as analogue twice leaves the same pin records as enabling it once |
| PinIo.WriteAnalogue | pin_io_functions.cpp:84-101 | a PWM-capable pin that is free or already a PWM output becomes a PWM output and gets exactly one `analogWrite` of the value; any other pin is refused with one report, nothing changes, and no pin is driven |
| PinIo.WriteAnalogueIdempotent | pin_io_functions.cpp:84-101 | repeating a PWM write leaves the same pin records |
| Globals.Start | pin_io_functions.cpp:12-51 | start-up keeps the pin table, counts the digital, analogue and PWM pins, sizes the analogue buffer at two bytes per analogue pin, gives the digital buffer the size it is handed, resets every pin, and loads the version buffer it is handed, and sets the boot defaults: no first Vpin, setup not complete, no reply armed, no test mode, and diagnostics and the display delay (`DIAG_CONFIG_DELAY * 1000`, display_functions.cpp:9) as the build configuration gives them |
| Globals.Boot | pin_io_functions.cpp:12-51 | start-up as written: the digital buffer has `numDigitalPins / 8` bytes, rounded down, every pin is reset, and the version buffer is the one handed in |
| Globals.BootAsWrittenTooShort | pin_io_functions.cpp:25 | booting a Mega-shaped table of 62 digital-capable pins as written leaves 7 digital bytes, so output-capable pin 61 has no byte |
| Globals.BootCorrected | pin_io_functions.cpp:12-51 | start-up with the buffer rounded up: with digital pins first, every digital-capable pin in use has its byte in the digital buffer |
| Globals.ExampleBootDefaults | myConfig.example.h:21-28 | with the example configuration (`DIAG` undefined, `DIAG_CONFIG_DELAY` 5) a board starts with diagnostics off and a 5000 ms display delay |
| Globals.Restart | device_functions.cpp:105-113 | a reboot on AVR or STM32 keeps the board, its counts and its buffer sizes, resets every pin and zeroes the buffers, and puts back every boot default: no first Vpin, setup not complete, no reply armed, no test mode, and diagnostics and the display delay of the board's build configuration |
| Globals.RestartGivesBoot | device_functions.cpp:105-113 | from any state on the board that start-up built, a reboot gives back exactly the start-up state |
| I2c.Init | i2c_functions.cpp:25-48 | EXIOINIT resets every pin and zeroes the buffers; it records the little-endian first Vpin; setup is complete exactly when the host's pin count equals ours; it arms the EXIOINIT reply |
| I2c.DigitalPullup | i2c_functions.cpp:59-85 | EXIODPUP makes a free pin an enabled digital input with the requested pullup, with no capability check, and sets its pin mode; a claimed pin keeps its record and is not driven |
| I2c.DigitalWriteCommand | i2c_functions.cpp:91-122 | EXIOWRD on an output-capable pin that is free or already a digital output claims it as a digital output; it sets bit `pin % 8` of byte `pin / 8` to the level, changes no other bit or pin, and drives the pin last; otherwise nothing changes and a single refusal is reported |
| I2c.ReceiveEvent | i2c_functions.cpp:15-149 | an empty frame, an unknown opcode or a wrong length changes no state and drives no pin; a read opcode only arms its reply; only EXIOINIT and the read opcodes change the reply flag; diagnostics and test modes are never touched |
| I2c.RequestEvent | i2c_functions.cpp:154-183 | the poll answers with EXIOPINS and the counts after a matching EXIOINIT and zeros otherwise, then the analogue pin map, the analogue or digital buffer, the version, or nothing |
| I2c.DigitalWriteIdempotent | i2c_functions.cpp:91-122 | receiving the same digital-write frame twice leaves the same state as receiving it once |
| I2c.InitThenPoll | i2c_functions.cpp:156-175 | after a matching EXIOINIT the poll returns EXIOPINS and the pin counts, and a digital-read poll returns all-zero bytes of the buffer's size |
| I2c.InitMismatchPollsZero | i2c_functions.cpp:26-48 | a mismatching pin count still resets every pin, leaves setup incomplete, and makes the poll answer 0, 0, 0 |
| I2c.AnalogueWriteDecodesLittleEndian | i2c_functions.cpp:139-145 | EXIOWRAN writes `lo + 256 * hi` to the pin |
| Servo.MapBetween | servo_functions.cpp:56 | Arduino's `map` from step 0..n onto from..to stays between the two positions, gives `from` at step 0 and `to` at step n |
| Servo.LinearPosition | servo_functions.cpp:56 | the linear profile's position lies between the two end positions and is the target at the last step |
| Servo.BouncePosition | servo_functions.cpp:50-53 | the bounce profile's position, with the table entry read, lies between the two end positions and is the target wherever the entry is 100% |
| Servo.UpdatePosition | servo_functions.cpp:36-66 | no animation means no change; a move to the same position jumps to the last step; during the animation the step advances by one and the position is written: for linear profiles it is Arduino's `map` of the new step from `0..numSteps` onto `from..to`, ending on the target; for bounce with the table entry read it is `map` of the step's table entry from `0..100` onto `from..to`; it stays between the end points unless a bounce profile reads the entry's address, in which case it is `map` of that address byte; during catch-up only the step advances; at the end of catch-up the animation stops exactly when the position is non-zero |
| Servo.UpdatePin | servo_functions.cpp:36-40 | a pin without servo data is skipped; a pin without an animation is left as it is |
| Servo.AnimatingReachesEnd | servo_functions.cpp:47-57 | a linear animation under way reaches its last step with the position on the target |
| Servo.SettlingThenIdle | servo_functions.cpp:60-62 | the catch-up phase only counts the step up to `numSteps + 5` |
| Servo.LinearAnimationCompletes | servo_functions.cpp:36-66 | a linear animation to a non-zero target ends on the target after `numSteps` updates (1 if already there), stays active for 5 catch-up steps, and stops on the next update |
| Servo.BounceLookupAsWrittenDiverges | servo_functions.cpp:52 | reading the low byte of the entry's address gives, at steps 13 or 14, a value that is not the table entry |
| Servo.BounceAsWrittenLeavesRange | servo_functions.cpp:50-57 | with the bounce table at an address whose low byte is 199, the first bounce step from 0 to 100 writes position 200, outside the travel |
| SuperPin.Construct | SuperPin.cpp:30-44 | a new generator is chained in at the head, for its pin, with on-count 0, off-count 255, running count 255 and state LOW; it is locked off; its pin is made an output and then driven LOW |
| SuperPin.ConstructedIsSilent | SuperPin.cpp:30-44 | however many ticks a new generator runs, it writes no level, and its pin stays LOW |
| SuperPin.SetPatternOfAsWritten | SuperPin.cpp:51-58 | the instance `setPattern` stores the counts, clears the count-down and records LOW, and does not write the pin |
| SuperPin.SetPatternOf | SuperPin.cpp:51-58 | the corrected instance update records LOW and also drives the pin LOW |
| SuperPin.IndexOf | SuperPin.cpp:68-73 | the search finds the first generator for the pin, and finds none exactly when no generator has that pin |
| SuperPin.SetPatternIn | SuperPin.cpp:67-75 | the static `setPattern` updates the pin's generator in place, or chains in a new one; no other generator changes; one generator per pin is kept |
| SuperPin.Set | SuperPin.cpp:61-64 | with the corrected update, `set` leaves the pin's generator at the steady pattern (255 on, 0 off) for HIGH or (0 on, 255 off) for LOW, with the count-down cleared and the state LOW; it keeps one generator per pin and drives the pin LOW |
| SuperPin.SetAsWritten | SuperPin.cpp:61-64 | `set` as written leaves the same generator record, but writes nothing to a pin that already has a generator |
| SuperPin.Tick | SuperPin.cpp:78-105 | a running count only counts down; at zero the state flips and the pin is written, unless the other side's count is zero, in which case the count reloads and nothing is written; the pin is written exactly when the state changes |
| SuperPin.Loop | SuperPin.cpp:114-116 | a loop ticks every generator of the chain once |
| SuperPin.LoopLevels | SuperPin.cpp:114-116 | with one generator per pin, a loop writes a pin exactly as that pin's own tick does |
| SuperPin.NoOtherLevels | SuperPin.cpp:114-116 | a loop never writes a pin that has no generator |
| SuperPin.RunLoopFollowsTicks | SuperPin.cpp:114-116 | `k` loops move each generator and write its pin as `k` ticks of it alone would |
| SuperPin.LockedIsSilent | SuperPin.cpp:83-99 | a generator locked HIGH or LOW stays locked and never writes its pin again |
| SuperPin.SetHoldsLevel | SuperPin.cpp:61-64 | with the corrected update, after `set(p, high)` and any number of loops (at least one for HIGH) the last level written to `p` is `high` |
| SuperPin.SetLowAfterHighAsWritten | SuperPin.cpp:61-64 | as written, `set(p, true)`, a loop, then `set(p, false)` leaves the generator LOW while the pin's last written level stays HIGH for any number of further loops |
| SuperPin.CycleTick | SuperPin.cpp:78-105 | with both counts non-zero, a tick moves one position through the `on + off` period, writing only on entering the HIGH or the LOW phase |
| SuperPin.TicksFollowPositions | SuperPin.cpp:78-105 | after `t` ticks from a fresh pattern, the generator is at position `t - 1` of its period, wrapping around |
| SuperPin.PatternIsPeriodic | SuperPin.cpp:51-105 | a pattern `(on, off)` is HIGH for its first `on` ticks, then LOW, and repeats every `on + off` ticks |
| Dimmer.EmptyPool | avr/EXIODimmer.cpp:9-11 | the slot table has `MAX_DIMMERS` inactive slots and no slot is handed out |
| Dimmer.Construct | avr/EXIODimmer.cpp:53-59 | a new dimmer takes the next free slot index, or `INVALID_DIMMER` once all slots are taken, and the count stays unchanged then |
| Dimmer.Attached | avr/EXIODimmer.cpp:73-79 | `attached` reports whether the slot is active; after attach then detach it reports the slot free (see Dimmer.DetachUndoesAttach) |
| Dimmer.ConstructionsAreSequential | avr/EXIODimmer.cpp:53-59 | the `k`-th dimmer built gets index `k` while slots remain, and every later one gets 255 |
| Dimmer.Attach | avr/EXIODimmer.cpp:61-71 | `attach` returns the dimmer's index; it activates a valid slot and sets its pin only if the slot was inactive; an invalid index changes nothing; no other slot changes |
| Dimmer.AttachKeepsFirstPin | avr/EXIODimmer.cpp:61-71 | attaching a second time changes nothing; the first pin stays |
| Dimmer.Detach | avr/EXIODimmer.cpp:81-83 | `detach` deactivates the slot and keeps its pin and value; no other slot changes |
| Dimmer.DetachUndoesAttach | avr/EXIODimmer.cpp:61-83 | detaching after attaching leaves the slot inactive, with only its pin changed |
| Dimmer.Clamp | avr/EXIODimmer.cpp:88-92 | the clamped value lies in `MIN_ON..MAX_ON`, and a value already inside is kept |
| Dimmer.Write | avr/EXIODimmer.cpp:85-98 | `write` sets the clamped on-value of a valid slot only; an invalid index changes nothing |
| Dimmer.DriveAll | avr/EXIODimmer.cpp:17-25 | each interrupt writes exactly one level per active slot, in slot order: HIGH while the counter is below the slot's on-value, else LOW; inactive slots get no write |
| Dimmer.SlotWrite | avr/EXIODimmer.cpp:17-25 | the write an interrupt makes for an active slot, taken from the interrupt's pin calls, is to the slot's pin, HIGH exactly while the counter is below its on-value |
| Dimmer.HandleInterrupts | avr/EXIODimmer.cpp:16-27 | one interrupt steps the counter on modulo 256 and writes every active slot's pin exactly once, in slot order, HIGH while the counter is below its on-value; over 256 interrupts this gives each slot on-value HIGH writes (Dimmer.DutyCycle) |
| Dimmer.InterruptsOnlyCount | avr/EXIODimmer.cpp:16-27 | `n` interrupts change nothing but the counter, which advances by `n` modulo 256 |
| Dimmer.HighInterruptsCountBelow | avr/EXIODimmer.cpp:16-27 | counted over the pin calls the interrupts make, the number of HIGH writes to an active slot's pin over `n` interrupts is the number of counter values below its on-value among those `n` |
| Dimmer.DutyCycle | avr/EXIODimmer.cpp:16-27 | over any 256 interrupts, the pin calls write HIGH to an active slot's pin exactly on-value times, whatever the starting counter |
| TestModes.Test | test_functions.cpp:53-57 | disabling a test clears only its flag, switches diagnostics off and resets every pin |
| TestModes.EnableSetsFlag | test_functions.cpp:36-52 | enabling a test leaves exactly that test's flag on, switches diagnostics on and marks setup complete |
| TestModes.EnableClaims | test_functions.cpp:36-132 | enabling a test gives every capable pin among the first `numPins` the test's record; every other pin is reset; both buffers are zero |
| TestModes.OutputTestModeIsNotAMode | test_functions.cpp:95-101 | a pin claimed by the output test is enabled as an output, and its mode is the capability bit index `DIGITAL_OUTPUT`, which is none of the four pin modes as numbered here |
| TestModes.TestServo | test_functions.cpp:134-155 | the servo test is refused once the host has configured the device or while a pin test runs; otherwise it marks setup complete and goes ahead |
| DeviceStore.GetI2CAddress | device_functions.cpp:37-62 | the loop reads cell 5 exactly when cells 0-4 hold "EXIO" and the record version; otherwise it returns 0, as it does without EEPROM |
| DeviceStore.WriteI2CAddress | device_functions.cpp:67-76 | writing stores the tag in cells 0-4 and the address's low byte in cell 5; other cells keep their values; without EEPROM nothing changes |
| DeviceStore.EraseI2CAddress | device_functions.cpp:81-86 | erasing zeroes cells 0-5; other cells keep their values |
| DeviceStore.WriteThenRead | device_functions.cpp:37-76 | an address written is read back as its low byte, so any byte address reads back unchanged |
| DeviceStore.EraseThenRead | device_functions.cpp:37-86 | after an erase, 0 is read back |
| DeviceStore.NoEepromStoresNothing | device_functions.cpp:88-101 | without EEPROM, writes and erases change nothing and 0 is always read |
| DeviceStore.ZeroLooksErased | device_functions.cpp:49-61 | storing address 0 reads back like an erased record, though the cells differ |
| SerialConsole.Feed | serial_functions.cpp:41-57 | outside a frame only `<` matters; inside, `>` ends the text with a NUL and marks a frame ready; any other character is stored and the slot moves on, stopping at the last slot |
| SerialConsole.Consume | serial_functions.cpp:40-58 | reading stops at the end of the input or at a ready frame; what is left unread is a suffix of the input, and is non-empty only when a frame is ready |
| SerialConsole.BodyFills | serial_functions.cpp:43-48 | inside a frame the text fills the buffer from slot 0, keeping its first 19 characters |
| SerialConsole.ReadFrame | serial_functions.cpp:34-58 | noise, `<`, a text without `>`, `>`, and more input give a ready frame holding the first 19 characters of the text, a NUL after them, and the later input unread |
| SerialConsole.NoiseIgnored | serial_functions.cpp:55-57 | characters other than `<` outside a frame change nothing |
| SerialConsole.ConsumeStopsWhenReady | serial_functions.cpp:40 | once a frame is ready, the rest of the input stays unread |
| SerialConsole.SerialCaseD | serial_functions.cpp:133-150 | `D n`: diagnostics end up on unless they were on and `n` is 0; a non-zero `n` sets the delay to `n * 1000` modulo 2^32 |
| SerialConsole.DiagToggle | serial_functions.cpp:139-148 | `D 0` flips diagnostics, and doing it twice restores the state |
| SerialConsole.DiagDelayIdempotent | serial_functions.cpp:134-138 | `D n` with `n` non-zero switches diagnostics on, and repeating it changes nothing |
| SerialConsole.DelayWraps | serial_functions.cpp:135 | the 32-bit product wraps: `D 4294968` sets a 704 ms delay |
| SerialConsole.SerialCaseW | serial_functions.cpp:202-208 | `W a` stores `a` when it is 0x08 to 0x77 and leaves the storage untouched otherwise |
| SerialConsole.SerialCaseR | serial_functions.cpp:179-186 | `R` reports "not stored" exactly when the stored address is 0, and otherwise reports that address |
| SerialConsole.WriteThenReport | serial_functions.cpp:179-208 | `W a` with a usable address followed by `R` reports `a` |
| SerialConsole.ToggleTest | serial_functions.cpp:124-131 | `T A`, `T I`, `T O` and `T P` switch the mode off when it is on and on when it is off |
| SerialConsole.ToggleTwice | serial_functions.cpp:152-177 | toggling a mode twice leaves every test off, diagnostics off and every pin reset |
| SerialConsole.TestStatus | serial_functions.cpp:188-200 | `T` alone names the first running test in the order analogue, input, output, pullup, and reports none exactly when no test runs |
| SerialConsole.StatusAfterToggle | serial_functions.cpp:188-200 | after switching a mode on, the status names that mode; after switching it off again, it names none |
| SerialConsole.Dispatch | serial_functions.cpp:83-120 | only `E` and `W` touch the stored address; `R`, `T`, `V` and unknown letters change nothing the model keeps; `Z` reboots the device: same board, every pin reset, setup not complete, no reply armed, test modes off, no first Vpin, diagnostics and display delay back at the build configuration's values; `E` leaves address 0 stored; a toggle flips that mode's flag |
| SerialConsole.RebootRestoresBoot | serial_functions.cpp:115-117 | `Z` on a device started on some board gives back exactly the start-up state and keeps the stored address |
| Display.TokensOfThree | display_functions.cpp:19-23 | `strtok` on "." splits three dot-free fields joined by dots back into those fields |
| Display.AtoiShow | display_functions.cpp:20 | `atoi` reads back the decimal spelling of any number |
| Display.SetVersion | display_functions.cpp:15-25 | the version buffer holds the first three dot-separated fields, each read as a number and cut to a byte |
| Display.SetVersionRoundTrip | display_functions.cpp:15-25 | a version string `a.b.c` of byte values gives the buffer `[a, b, c]` |
| Display.FirmwareVersion | version.h:4 | version "0.0.4" gives the version bytes 0, 0, 4 |
| Display.VersionReply | i2c_functions.cpp:177-179 | with the firmware's version loaded, an EXIOVER poll answers 0, 0, 4 |
| Display.BootedVersionReply | display_functions.cpp:15-25 | a board started with the version buffer `setVersion` builds from the firmware's version string answers an EXIOVER poll with 0, 0, 4 |
| Display.DigitalPinState | display_functions.cpp:43-52 | a digital pin is shown by bit `pin % 8` of byte `pin / 8` |
| Display.DisplayShowsDigitalWrite | display_functions.cpp:43-52 | after an accepted digital write the display shows the written level for that pin, and unchanged levels for every other pin |
| Display.AnalogueValue | display_functions.cpp:56-61 | the displayed analogue value has the LSB byte as its low byte and the next byte as its high byte |
| Display.AnalogueValueRoundTrip | display_functions.cpp:56-61 | a 16-bit value stored little-endian at the LSB offset displays as itself |
| Display.ReportPin | display_functions.cpp:33-75 | a pin is displayed by its mode, each report naming its physical pin: an unused pin as not in use; a digital pin with its direction, pull-up and bit; an analogue pin with its little-endian value; a PWM pin as PWM; a mode outside these four displays nothing |
| Display.OutputTestPinsNotDisplayed | display_functions.cpp:73-74 | while the output test runs, its pins carry mode `DIGITAL_OUTPUT`, and the display prints nothing for them exactly when that value is none of the four mode numbers; with the numbering here it prints nothing |

## Left out

- Serial, USB and diagnostic printing are not modelled. Only refusals and
  malformed-frame notices remain, as `Refused` and `BadLength` events.
- The Wire transport is not modelled. `ReceiveEvent` takes the whole frame
  and `RequestEvent` returns the reply bytes.
- `pinMode` calls made by `initialisePins` are not recorded. The reset pin
  records are.
- Heap allocation (`calloc`, `new SuperPin`) is modelled as sequences of the
  right length.
- The `millis` pacing of `displayPins`, the timer setup `initISR`, the
  interrupt vector, `noInterrupts`/`SREG` and `disableJTAG` are not
  modelled. They are clocks, registers or concurrency.
- Globals.Start: `diag` is only declared in the modelled files (globals.h:20).
  Its start-up value is taken from the `DIAG` build option, which is how
  myConfig.example.h:21-23 describes turning diagnostics on. The code that
  assigns it is not part of this model.
- SerialConsole.Dispatch: `Z` is modelled as the restart that AVR and STM32
  boards perform. On other architectures `reset` does nothing, and that
  case is not modelled. The watchdog and system-reset mechanics are not
  modelled either: `Globals.Restart` gives only the state after setup runs
  again.
- The console line parser (`strtok`/`strtol`/`strtoul` over the received
  text) is not modelled. `Dispatch` takes the parsed command.
- `V` (`startupDisplay`, `displayVpinMap`) only prints.
- `disableWire` and the three-argument `writeAnalogue` that `testServo` calls
  are not part of this model. `TestModes.TestServo` reports only whether the
  write would go ahead.
- Reading analogue inputs into the analogue buffer is not part of this model.
- The commented-out dimmer code at SuperPin.cpp:118-216 is not modelled.
- The servo profile constants (`SERVO_BOUNCE`, `SERVO_NOPOWEROFF`) are not
  part of this model. The profile is a datatype.
- I2c.ReceiveEvent: requires the pin byte of a frame to index the table.
  For a digital write to an output-capable pin, it also requires the pin's
  byte to lie in the digital buffer. The source checks neither.
- I2c.DigitalWriteCommand: requires the same bounds as `ReceiveEvent`.
- Dimmer.Attached: requires a valid slot index. The source reads slot 255
  for `INVALID_DIMMER`, which is outside the table.
- Dimmer.Detach: requires a valid slot index, for the same reason as
  `Attached`.
- Display.SetVersion: requires three fields. With fewer, `strtok`
  returns NULL and `atoi` is handed it.
- Display.AtoiShow: `atoi` is modelled on leading decimal digits only, with
  no leading blanks or sign, and its unbounded value is then cut to a byte.
- Display.AnalogueValue: does not model the AVR's 16-bit signed `int`
  overflow of `msb << 8` for high bytes of 0x80 and above.
- Display.ReportPin: takes the analogue LSB offset as a parameter. No
  modelled code sets `analogueLSBByte`.
- Servo.UpdatePosition: promises a position between the end points for a
  bounce profile only with the table entry read. With the entry's address
  read, as written, it promises only the mapped address byte.
- Servo.UpdatePosition: requires a bounce animation to have fewer than 30
  steps. The code that sets `numSteps` is not part of this model, and the
  table has 30 entries.
- TestModes.OutputTestModeIsNotAMode: the mode values `MODE_UNUSED`,
  `MODE_DIGITAL`, `MODE_ANALOGUE` and `MODE_PWM` and the capability bit
  `DIGITAL_OUTPUT` are not defined in the modelled files. The model numbers
  the modes 0, 2, 3 and 4 and the bit 1. The conclusion that the bit is
  none of the modes rests on that numbering.
- Display.OutputTestPinsNotDisplayed: its unconditional "prints nothing"
  rests on the same mode numbering; the conditional form does not.
- SerialConsole.SerialCaseD: the parameter is the `unsigned long` after
  parsing; the parse itself is not modelled.

## Findings

| source | as written | input that shows it | evidently intended | confidence | as-written member | corrected member |
|---|---|---|---|---|---|---|
| SuperPin.cpp:51-58 | the instance `setPattern` records the state LOW but does not write the pin, and a generator locked LOW never writes | `set(p, true)`, one `loop`, `set(p, false)`, then any number of loops: the pin was last driven HIGH and stays HIGH | `set(p, false)` drives the pin LOW | not executed; high | SuperPin.SetLowAfterHighAsWritten | SuperPin.SetHoldsLevel |
| pin_io_functions.cpp:25 | `digitalPinBytes = numDigitalPins / 8` rounds down | the Mega table (arduino_avr_mega.h:27-35) has 62 digital-capable pins, so the buffer has 7 bytes; EXIOWRD to pin 56-61 writes byte 7 | `(numDigitalPins + 7) / 8` | not executed; high | Globals.BootAsWrittenTooShort | Globals.BootCorrected |
| servo_functions.cpp:52 | `profileValue` takes the address of the bounce entry, cut to 8 bits, not the entry itself | steps 13 and 14: both entries are 60, but their addresses differ by one, so at least one lookup is wrong; with the table at an address whose low byte is 199, a bounce from 0 to 100 writes position 200 | `profileValue = bounceProfile[stepNumber]` | not executed; high | Servo.BounceAsWrittenLeavesRange | Servo.UpdatePosition |

=== FILE: bytes.dfy ===
/** Machine-width integers and the Arduino bit helpers (bitRead, bitSet,
    bitClear) the firmware uses on its packed state buffers. */
module Bytes {

  type byte = b: int | 0 <= b < 0x100
  type uint16 = x: int | 0 <= x < 0x1_0000
  type uint32 = x: int | 0 <= x < 0x1_0000_0000

  /** The single-bit mask `1 << i` of a byte. Packed bit buffers are held
      as `bv8` so that bit manipulation stays in bit-vector arithmetic. */
  function Mask(i: nat): bv8
    requires i < 8
  {
    match i
    case 0 => 1 case 1 => 2 case 2 => 4 case 3 => 8
    case 4 => 16 case 5 => 32 case 6 => 64 case _ => 128
  }

  /** Bit `i` of `b` is set, as Arduino's `bitRead(b, i)`. */
  predicate BitRead(b: bv8, i: nat)
    requires i < 8
  {
    b & Mask(i) != 0
  }

  /** `bitSet(b, i)` when `high`, `bitClear(b, i)` otherwise. */
  function BitWrite(b: bv8, i: nat, high: bool): (r: bv8)
    requires i < 8
    ensures BitRead(r, i) == high
    ensures forall j :: 0 <= j < 8 && j != i ==> BitRead(r, j) == BitRead(b, j)
  {
    BitWriteBits(b, i, high);
    Written(b, i, high)
  }

  function Written(b: bv8, i: nat, high: bool): bv8
    requires i < 8
  {
    if high then b | Mask(i) else b & !Mask(i)
  }

  /** Setting or clearing one bit touches that bit alone. */
  lemma BitWriteBits(b: bv8, i: nat, high: bool)
    requires i < 8
    ensures BitRead(Written(b, i, high), i) == high
    ensures forall j :: 0 <= j < 8 && j != i ==> BitRead(Written(b, i, high), j) == BitRead(b, j)
  {
    forall j | 0 <= j < 8 && j != i
      ensures BitRead(Written(b, i, high), j) == BitRead(b, j)
    {
      assert Mask(i) & Mask(j) == 0;
    }
  }

  /** A byte is determined by its eight bits. */
  lemma BitsDetermineByte(a: bv8, b: bv8)
    requires forall j :: 0 <= j < 8 ==> BitRead(a, j) == BitRead(b, j)
    ensures a == b
  {
    assert BitRead(a, 0) == BitRead(b, 0) && BitRead(a, 1) == BitRead(b, 1);
    assert BitRead(a, 2) == BitRead(b, 2) && BitRead(a, 3) == BitRead(b, 3);
    assert BitRead(a, 4) == BitRead(b, 4) && BitRead(a, 5) == BitRead(b, 5);
    assert BitRead(a, 6) == BitRead(b, 6) && BitRead(a, 7) == BitRead(b, 7);
  }

  /** Writing the bit a byte already holds gives back the same byte, so
      repeating a bit write is idempotent. */
  lemma BitWriteIdempotent(b: bv8, i: nat, high: bool)
    requires i < 8
    ensures BitWrite(BitWrite(b, i, high), i, high) == BitWrite(b, i, high)
  {
    var once := BitWrite(b, i, high);
    BitsDetermineByte(BitWrite(once, i, high), once);
  }

  /** The bytes of a packed buffer as they go out on the bus. */
  function Unpack(s: seq<bv8>): (r: seq<byte>)
    ensures |r| == |s|
    ensures forall k :: 0 <= k < |s| ==> r[k] == s[k] as int
  {
    seq(|s|, k requires 0 <= k < |s| => s[k] as int)
  }

  /** The low byte of a two's-complement integer, as a C cast to uint8_t. */
  function LowByte(x: int): (r: byte)
    ensures (x - r) % 0x100 == 0
  {
    x % 0x100
  }

  /** A little-endian 16-bit value assembled from two bytes, as
      `(hi << 8) + lo` in the source. */
  function LittleEndian16(lo: byte, hi: byte): (r: uint16)
    ensures r % 0x100 == lo && r / 0x100 == hi
  {
    lo + 0x100 * hi
  }
}

=== FILE: device_store.dfy ===
/** The persistent I2C address record. Cells 0-4 hold the tag "EXIO" and
    the record version; cell 5 holds the address. Boards without EEPROM
    never report an address and ignore writes and erases. */
module DeviceStore {
  import opened Bytes

  const EepromVersion: byte := 1

  /** The five tag bytes that mark a stored address. */
  const Tag: seq<byte> := ['E' as int, 'X' as int, 'I' as int, 'O' as int, EepromVersion]

  /** The address cell. */
  const AddressCell: nat := 5

  datatype Storage = Eeprom(cells: seq<byte>) | NoEeprom

  /** The EEPROM is large enough for the record. */
  predicate ValidStorage(s: Storage) {
    s.Eeprom? ==> |s.cells| > AddressCell
  }

  predicate HasTag(cells: seq<byte>)
    requires |cells| > AddressCell
  {
    cells[..5] == Tag
  }

  /** The address a storage holds: cell 5 behind a valid tag, 0 otherwise. */
  function StoredAddress(s: Storage): byte
    requires ValidStorage(s)
  {
    if s.Eeprom? && HasTag(s.cells) then s.cells[AddressCell] else 0
  }

  /** Reads the tag a cell at a time and stops at the first mismatch; on a
      full match returns the address cell, otherwise 0. */
  method GetI2CAddress(s: Storage) returns (address: byte)
    requires ValidStorage(s)
    ensures address == StoredAddress(s)
    ensures s.Eeprom? && !HasTag(s.cells) ==> address == 0
    ensures s.NoEeprom? ==> address == 0
  {
    if s.NoEeprom? {
      return 0;
    }
    var addressSet := true;
    var i := 0;
    while i < 5
      invariant 0 <= i <= 5
      invariant addressSet <==> s.cells[..i] == Tag[..i]
      invariant !addressSet ==> s.cells[..5] != Tag
    {
      if s.cells[i] != Tag[i] {
        addressSet := false;
        assert s.cells[..5][i] != Tag[i];
        break;
      }
      assert s.cells[..i + 1] == s.cells[..i] + [s.cells[i]];
      assert Tag[..i + 1] == Tag[..i] + [Tag[i]];
      i := i + 1;
    }
    if addressSet {
      assert i == 5;
      assert s.cells[..5] == Tag;
      address := s.cells[AddressCell];
    } else {
      address := 0;
    }
  }

  /** Writes the tag to cells 0-4 and the address, cut to its low byte as
      the EEPROM cell stores it, to cell 5. Nothing else changes. */
  function WriteI2CAddress(s: Storage, address: int): (r: Storage)
    requires ValidStorage(s) && -0x8000 <= address < 0x8000
    ensures ValidStorage(r)
    ensures s.NoEeprom? ==> r == s
    ensures s.Eeprom? ==>
      && r.Eeprom? && |r.cells| == |s.cells| && r.cells[..5] == Tag
      && r.cells[AddressCell] == LowByte(address)
      && r.cells[AddressCell + 1..] == s.cells[AddressCell + 1..]
  {
    match s
    case NoEeprom => s
    case Eeprom(cells) => Eeprom(Tag + [LowByte(address)] + cells[AddressCell + 1..])
  }

  /** Zeroes cells 0-5; nothing else changes. */
  function EraseI2CAddress(s: Storage): (r: Storage)
    requires ValidStorage(s)
    ensures ValidStorage(r)
    ensures s.NoEeprom? ==> r == s
    ensures s.Eeprom? ==>
      && r.Eeprom? && |r.cells| == |s.cells|
      && (forall k :: 0 <= k <= AddressCell ==> r.cells[k] == 0)
      && r.cells[AddressCell + 1..] == s.cells[AddressCell + 1..]
  {
    match s
    case NoEeprom => s
    case Eeprom(cells) => Eeprom(seq(AddressCell + 1, _ => 0) + cells[AddressCell + 1..])
  }

  /** Writing an address and reading it back gives the address's low byte,
      and the address itself for every address a byte holds. */
  lemma WriteThenRead(s: Storage, address: int)
    requires ValidStorage(s) && s.Eeprom? && -0x8000 <= address < 0x8000
    ensures StoredAddress(WriteI2CAddress(s, address)) == LowByte(address)
    ensures 0 <= address < 0x100 ==> StoredAddress(WriteI2CAddress(s, address)) == address
  {
  }

  /** After an erase no address is stored. */
  lemma EraseThenRead(s: Storage)
    requires ValidStorage(s)
    ensures StoredAddress(EraseI2CAddress(s)) == 0
  {
    if s.Eeprom? {
      assert EraseI2CAddress(s).cells[0] == 0;
      assert EraseI2CAddress(s).cells[..5][0] != Tag[0];
    }
  }

  /** Without EEPROM nothing is ever stored, whatever is written or erased. */
  lemma NoEepromStoresNothing(address: int)
    requires -0x8000 <= address < 0x8000
    ensures StoredAddress(WriteI2CAddress(NoEeprom, address)) == 0
    ensures EraseI2CAddress(NoEeprom) == NoEeprom
  {
  }

  /** A stored address of 0 reads back exactly like an erased record,
      though the cells differ: the tag is present in one and not the
      other. */
  lemma ZeroLooksErased(s: Storage)
    requires ValidStorage(s) && s.Eeprom?
    ensures StoredAddress(WriteI2CAddress(s, 0)) == StoredAddress(EraseI2CAddress(s)) == 0
    ensures WriteI2CAddress(s, 0) != EraseI2CAddress(s)
  {
    EraseThenRead(s);
    assert WriteI2CAddress(s, 0).cells[0] != EraseI2CAddress(s).cells[0];
  }
}

=== FILE: dimmer.dfy ===
/** The AVR dimmer driver: a fixed pool of dimmer slots handed out in order
    at construction, and a timer interrupt that drives every active
    dimmer's pin HIGH while a wrapping 8-bit counter is below its on-value,
    which gives a duty cycle of `onValue / 256`. */
module Dimmer {
  import opened Bytes
  import opened Hardware

  const InvalidDimmer: byte := 255
  const MinOn: byte := 0
  const MaxOn: byte := 255

  /** The boards the driver is built for; the pool size depends on them. */
  datatype Board = NanoUnoPro | Mega

  function MaxDimmers(b: Board): byte {
    match b
    case NanoUnoPro => 16
    case Mega => 62
  }

  datatype DimmerDefinition = DimmerDefinition(physicalPin: byte, isActive: bool, onValue: byte)

  /** The driver's statics: the slot array, the number of slots handed out,
      and the interrupt counter. */
  datatype Pool = Pool(dimmers: seq<DimmerDefinition>, dimmerCount: byte, counter: byte)

  predicate ValidPool(p: Pool) {
    |p.dimmers| < InvalidDimmer as int && p.dimmerCount as int <= |p.dimmers|
  }

  /** The zero-initialised statics at power-up. */
  function EmptyPool(b: Board): (p: Pool)
    ensures ValidPool(p) && |p.dimmers| == MaxDimmers(b) as int && p.dimmerCount == 0
    ensures forall i :: 0 <= i < |p.dimmers| ==> !p.dimmers[i].isActive
  {
    Pool(seq(MaxDimmers(b), _ => DimmerDefinition(0, false, 0)), 0, 0)
  }

  /** A dimmer object's constructor: the next free slot index, or
      `InvalidDimmer` once every slot has been handed out. */
  function Construct(p: Pool): (r: (Pool, byte))
    requires ValidPool(p)
    ensures ValidPool(r.0) && r.0.dimmers == p.dimmers && r.0.counter == p.counter
    ensures p.dimmerCount as int < |p.dimmers| ==>
      r.1 == p.dimmerCount && r.0.dimmerCount == p.dimmerCount + 1
    ensures p.dimmerCount as int == |p.dimmers| ==> r.1 == InvalidDimmer && r.0 == p
  {
    if (p.dimmerCount as int) < |p.dimmers| then (p.(dimmerCount := p.dimmerCount + 1), p.dimmerCount)
    else (p, InvalidDimmer)
  }

  /** The indices `n` successive constructions return. */
  function ConstructMany(p: Pool, n: nat): (r: (Pool, seq<byte>))
    requires ValidPool(p)
    ensures ValidPool(r.0) && r.0.dimmers == p.dimmers && |r.1| == n
    decreases n
  {
    if n == 0 then (p, [])
    else
      var a := ConstructMany(p, n - 1);
      var b := Construct(a.0);
      (b.0, a.1 + [b.1])
  }

  /** From power-up, construction `k` gets slot `k` while slots last, and
      every later one gets `InvalidDimmer`. */
  lemma {:induction false} ConstructionsAreSequential(b: Board, n: nat)
    ensures var r := ConstructMany(EmptyPool(b), n);
      && r.0.dimmerCount as int == (if n < MaxDimmers(b) as int then n else MaxDimmers(b) as int)
      && forall k :: 0 <= k < n ==> r.1[k] == if k < MaxDimmers(b) as int then k else InvalidDimmer as int
    decreases n
  {
    if n > 0 {
      ConstructionsAreSequential(b, n - 1);
    }
  }

  /** What `attach` returns, with the pool it leaves and the pin calls it
      makes. */
  datatype AttachStep = AttachStep(pool: Pool, result: byte, events: seq<Event>)

  /** Claims slot `index` for `pin`. A free valid slot becomes active on
      that pin, which is made an output; an active slot keeps the pin it
      was first attached to; an invalid index changes nothing. The index
      is returned in every case. */
  function Attach(p: Pool, index: byte, pin: byte): (r: AttachStep)
    requires ValidPool(p)
    ensures r.result == index && ValidPool(r.pool)
    ensures r.pool.dimmerCount == p.dimmerCount && r.pool.counter == p.counter
    ensures |r.pool.dimmers| == |p.dimmers|
    ensures index as int >= |p.dimmers| ==> r.pool == p && r.events == []
    ensures index as int < |p.dimmers| ==>
      && r.pool.dimmers[index].isActive
      && r.pool.dimmers[index].onValue == p.dimmers[index].onValue
      && r.pool.dimmers[index].physicalPin == (if p.dimmers[index].isActive then p.dimmers[index].physicalPin else pin)
      && (forall k :: 0 <= k < |p.dimmers| && k != index as int ==> r.pool.dimmers[k] == p.dimmers[k])
  {
    if (index as int) < |p.dimmers| && !p.dimmers[index].isActive then
      var d := p.dimmers[index].(isActive := true, physicalPin := pin);
      AttachStep(p.(dimmers := p.dimmers[index := d]), index, [PinModeOutput(pin)])
    else
      AttachStep(p, index, [])
  }

  /** Attaching twice, to any pins, is attaching once: the slot keeps the
      pin of the first attach. */
  lemma AttachKeepsFirstPin(p: Pool, index: byte, pin1: byte, pin2: byte)
    requires ValidPool(p) && index as int < |p.dimmers| && !p.dimmers[index].isActive
    ensures Attach(Attach(p, index, pin1).pool, index, pin2).pool == Attach(p, index, pin1).pool
    ensures Attach(Attach(p, index, pin1).pool, index, pin2).pool.dimmers[index].physicalPin == pin1
  {
  }

  function Attached(p: Pool, index: byte): (r: bool)
    requires index as int < |p.dimmers|
    ensures r == p.dimmers[index].isActive
  {
    p.dimmers[index].isActive
  }

  /** Releases slot `index`: only its active flag changes. */
  function Detach(p: Pool, index: byte): (r: Pool)
    requires index as int < |p.dimmers|
    ensures |r.dimmers| == |p.dimmers| && r.dimmerCount == p.dimmerCount && r.counter == p.counter
    ensures r.dimmers[index] == p.dimmers[index].(isActive := false)
    ensures forall k :: 0 <= k < |p.dimmers| && k != index as int ==> r.dimmers[k] == p.dimmers[k]
  {
    p.(dimmers := p.dimmers[index := p.dimmers[index].(isActive := false)])
  }

  /** Attach then detach leaves the slot inactive with the attached pin
      recorded, and `attached` reports it free again. */
  lemma DetachUndoesAttach(p: Pool, index: byte, pin: byte)
    requires ValidPool(p) && index as int < |p.dimmers| && !p.dimmers[index].isActive
    ensures !Attached(Detach(Attach(p, index, pin).pool, index), index)
    ensures Detach(Attach(p, index, pin).pool, index).dimmers ==
      p.dimmers[index := p.dimmers[index].(physicalPin := pin)]
  {
  }

  /** `value` clamped to the on-value range. The range is the whole byte,
      so every value is its own clamp. */
  function Clamp(value: byte): (r: byte)
    ensures MinOn <= r <= MaxOn
    ensures MinOn <= value <= MaxOn ==> r == value
  {
    if value < MinOn then MinOn else if value > MaxOn then MaxOn else value
  }

  /** Sets slot `index`'s on-value (clamped) for a valid index; does
      nothing otherwise. The active flag and pin are untouched. */
  function Write(p: Pool, index: byte, value: byte): (r: Pool)
    ensures |r.dimmers| == |p.dimmers| && r.dimmerCount == p.dimmerCount && r.counter == p.counter
    ensures index as int >= |p.dimmers| ==> r == p
    ensures index as int < |p.dimmers| ==>
      && r.dimmers[index] == p.dimmers[index].(onValue := Clamp(value))
      && (forall k :: 0 <= k < |p.dimmers| && k != index as int ==> r.dimmers[k] == p.dimmers[k])
  {
    if (index as int) < |p.dimmers| then
      p.(dimmers := p.dimmers[index := p.dimmers[index].(onValue := Clamp(value))])
    else p
  }

  /** The pin call one interrupt makes for one slot: an active dimmer is
      driven HIGH while the counter is below its on-value and LOW from
      there on; an inactive one is left alone. */
  function Drive(d: DimmerDefinition, counter: byte): (r: seq<Event>)
    ensures !d.isActive <==> r == []
    ensures d.isActive ==> r == [DigitalWrite(d.physicalPin, counter < d.onValue)]
  {
    if d.isActive then [DigitalWrite(d.physicalPin, counter < d.onValue)] else []
  }

  /** How many of the slots before index `i` are active. */
  function ActiveBefore(ds: seq<DimmerDefinition>, i: nat): nat
    requires i <= |ds|
    decreases i
  {
    if i == 0 then 0 else (if ds[0].isActive then 1 else 0) + ActiveBefore(ds[1..], i - 1)
  }

  /** The pin calls of one interrupt, slot by slot in index order: one
      write per active slot, and an active slot `i`'s write comes after
      those of the active slots before it. */
  function DriveAll(ds: seq<DimmerDefinition>, counter: byte): (r: seq<Event>)
    ensures |r| == ActiveBefore(ds, |ds|)
    ensures forall i :: 0 <= i < |ds| && ds[i].isActive ==>
      ActiveBefore(ds, i) < |r| && r[ActiveBefore(ds, i)] == DigitalWrite(ds[i].physicalPin, counter < ds[i].onValue)
    ensures forall e :: e in r ==> exists i :: 0 <= i < |ds| && ds[i].isActive && e == Drive(ds[i], counter)[0]
    decreases |ds|
  {
    if |ds| == 0 then []
    else
      var rest := DriveAll(ds[1..], counter);
      var first := Drive(ds[0], counter);
      assert forall i :: 0 < i < |ds| && ds[i].isActive ==>
        ActiveBefore(ds, i) < |first + rest| &&
        (first + rest)[ActiveBefore(ds, i)] == DigitalWrite(ds[i].physicalPin, counter < ds[i].onValue) by {
        forall i | 0 < i < |ds| && ds[i].isActive
          ensures ActiveBefore(ds, i) < |first + rest|
          ensures (first + rest)[ActiveBefore(ds, i)] == DigitalWrite(ds[i].physicalPin, counter < ds[i].onValue)
        {
          assert ds[1..][i - 1] == ds[i];
          assert ActiveBefore(ds, i) == |first| + ActiveBefore(ds[1..], i - 1);
        }
      }
      assert forall e :: e in rest ==> exists i :: 0 <= i < |ds| && ds[i].isActive && e == Drive(ds[i], counter)[0] by {
        forall e | e in rest ensures exists i :: 0 <= i < |ds| && ds[i].isActive && e == Drive(ds[i], counter)[0] {
          var j :| 0 <= j < |ds[1..]| && ds[1..][j].isActive && e == Drive(ds[1..][j], counter)[0];
          assert ds[j + 1] == ds[1..][j];
        }
      }
      first + rest
  }

  /** One timer interrupt: the active dimmers are driven and the counter
      steps on, wrapping at 256. */
  datatype InterruptStep = InterruptStep(pool: Pool, events: seq<Event>)

  function HandleInterrupts(p: Pool): (r: InterruptStep)
    ensures r.pool == p.(counter := (p.counter + 1) % 0x100)
    ensures r.events == DriveAll(p.dimmers, p.counter)
    ensures |r.events| == ActiveBefore(p.dimmers, |p.dimmers|)
    ensures forall i :: 0 <= i < |p.dimmers| && p.dimmers[i].isActive ==>
      ActiveBefore(p.dimmers, i) < |r.events| &&
      r.events[ActiveBefore(p.dimmers, i)] == DigitalWrite(p.dimmers[i].physicalPin, p.counter < p.dimmers[i].onValue)
  {
    InterruptStep(p.(counter := (p.counter + 1) % 0x100), DriveAll(p.dimmers, p.counter))
  }

  /** The pool after `n` interrupts. */
  function RunInterrupts(p: Pool, n: nat): (r: Pool)
    ensures r.dimmers == p.dimmers
    decreases n
  {
    if n == 0 then p else HandleInterrupts(RunInterrupts(p, n - 1)).pool
  }

  /** Interrupts change nothing but the counter, which counts modulo 256. */
  lemma {:induction false} InterruptsOnlyCount(p: Pool, n: nat)
    ensures RunInterrupts(p, n) == p.(counter := (p.counter + n) % 0x100)
    decreases n
  {
    if n > 0 {
      InterruptsOnlyCount(p, n - 1);
      ModSucc256(p.counter + n - 1);
    }
  }

  lemma ModSucc256(a: nat)
    ensures ((a % 0x100) + 1) % 0x100 == (a + 1) % 0x100
  {
    var q := a / 0x100;
    var r := a % 0x100;
    assert a == 0x100 * q + r;
    if r == 0xFF {
      assert a + 1 == 0x100 * (q + 1);
    } else {
      assert a + 1 == 0x100 * q + (r + 1);
    }
  }

  /** The write an interrupt from `p` makes for active slot `i`, picked
      out of the interrupt's pin calls: the slot's pin, HIGH exactly while
      the counter is below the slot's on-value. */
  function SlotWrite(p: Pool, i: nat): (e: Event)
    requires i < |p.dimmers| && p.dimmers[i].isActive
    ensures e == DigitalWrite(p.dimmers[i].physicalPin, p.counter < p.dimmers[i].onValue)
  {
    HandleInterrupts(p).events[ActiveBefore(p.dimmers, i)]
  }

  /** How many of the first `n` interrupts from `p` write HIGH to active
      slot `i`'s pin, reading each interrupt's pin calls. */
  function HighInterrupts(p: Pool, i: nat, n: nat): nat
    requires i < |p.dimmers| && p.dimmers[i].isActive
    decreases n
  {
    if n == 0 then 0
    else
      var q := RunInterrupts(p, n - 1);
      HighInterrupts(p, i, n - 1) + (if SlotWrite(q, i) == DigitalWrite(p.dimmers[i].physicalPin, true) then 1 else 0)
  }

  /** How many of the counter values `c`, `c + 1`, ..., `c + n - 1` (modulo
      256) are below `v`. */
  function BelowCount(v: byte, c: nat, n: nat): nat
    decreases n
  {
    if n == 0 then 0 else BelowCount(v, c, n - 1) + (if (c + n - 1) % 0x100 < v then 1 else 0)
  }

  lemma {:induction false} HighInterruptsCountBelow(p: Pool, i: nat, n: nat)
    requires i < |p.dimmers| && p.dimmers[i].isActive
    ensures HighInterrupts(p, i, n) == BelowCount(p.dimmers[i].onValue, p.counter, n)
    decreases n
  {
    if n > 0 {
      HighInterruptsCountBelow(p, i, n - 1);
      HighInterruptsStep(p, i, n);
    }
  }

  /** Interrupt `n - 1` from `p` writes HIGH to slot `i` exactly when the
      counter, `n - 1` steps on, is below the slot's on-value. */
  lemma HighInterruptsStep(p: Pool, i: nat, n: nat)
    requires i < |p.dimmers| && p.dimmers[i].isActive && n > 0
    ensures HighInterrupts(p, i, n) ==
      HighInterrupts(p, i, n - 1) + (if (p.counter + n - 1) % 0x100 < p.dimmers[i].onValue then 1 else 0)
  {
    InterruptsOnlyCount(p, n - 1);
    var q := RunInterrupts(p, n - 1);
    assert q.counter == (p.counter + n - 1) % 0x100;
    assert SlotWrite(q, i) == DigitalWrite(p.dimmers[i].physicalPin, q.counter < p.dimmers[i].onValue);
  }

  /** Counting from 0, the first `n <= 256` counter values include `v`
      values below `v` once `n` has passed `v`. */
  lemma {:induction false} BelowCountFromZero(v: byte, n: nat)
    requires n <= 0x100
    ensures BelowCount(v, 0, n) == if n < v as int then n else v as int
    decreases n
  {
    if n > 0 {
      BelowCountFromZero(v, n - 1);
    }
  }

  /** Splitting off the first counter value of a window. */
  lemma {:induction false} BelowCountFront(v: byte, c: nat, n: nat)
    ensures BelowCount(v, c, n + 1) == (if c % 0x100 < v then 1 else 0) + BelowCount(v, c + 1, n)
    decreases n
  {
    if n > 0 {
      BelowCountFront(v, c, n - 1);
    }
  }

  /** Sliding a window on by one value drops its first value and adds the
      next. */
  lemma BelowCountSlide(v: byte, c: nat, n: nat)
    ensures BelowCount(v, c + 1, n) + (if c % 0x100 < v then 1 else 0)
         == BelowCount(v, c, n) + (if (c + n) % 0x100 < v then 1 else 0)
  {
    BelowCountFront(v, c, n);
  }

  lemma {:induction false} ModAddMultiple(d: nat, q: nat)
    ensures (d + 0x100 * q) % 0x100 == d % 0x100
    decreases q
  {
    if q > 0 {
      ModAddMultiple(d, q - 1);
      assert d + 0x100 * q == (d + 0x100 * (q - 1)) + 0x100;
    }
  }

  /** A window whose length is a whole number of counter wraps counts the
      same wherever it starts. */
  lemma {:induction false} BelowCountWindow(v: byte, c: nat, w: nat)
    requires c < 0x100 && w % 0x100 == 0
    ensures BelowCount(v, c, w) == BelowCount(v, 0, w)
    decreases c
  {
    if c > 0 {
      BelowCountWindow(v, c - 1, w);
      BelowCountSlide(v, c - 1, w);
      ModAddMultiple(c - 1, w / 0x100);
    }
  }

  /** Over any 256 consecutive interrupts an active dimmer is driven HIGH
      exactly `onValue` times. */
  lemma DutyCycle(p: Pool, i: nat)
    requires i < |p.dimmers| && p.dimmers[i].isActive
    ensures HighInterrupts(p, i, 0x100) == p.dimmers[i].onValue
  {
    HighInterruptsCountBelow(p, i, 0x100);
    BelowCountWindow(p.dimmers[i].onValue, p.counter, 0x100);
    BelowCountFromZero(p.dimmers[i].onValue, 0x100);
  }
}

=== FILE: display.dfy ===
/** The version bytes sent to the host, and how the diagnostic display
    decodes a pin's state from the state buffers. */
module Display {
  import opened Bytes
  import opened PinMap
  import opened Hardware
  import opened PinIo
  import opened Globals
  import opened I2c
  import opened TestModes

  /** The firmware version string. */
  const Version: string := "0.0.4"

  const Dot: char := '.'

  predicate NoDot(s: string) {
    forall k :: 0 <= k < |s| ==> s[k] != Dot
  }

  /** The longest prefix of `s` without a dot. */
  function TakeToken(s: string): (t: string)
    ensures |t| <= |s| && t == s[..|t|] && NoDot(t)
    ensures |t| < |s| ==> s[|t|] == Dot
  {
    if |s| == 0 || s[0] == Dot then [] else [s[0]] + TakeToken(s[1..])
  }

  /** `strtok` on "." called until it runs out: the maximal runs of
      non-dots, skipping empty ones. */
  function Tokens(s: string): (ts: seq<string>)
    ensures forall i :: 0 <= i < |ts| ==> |ts[i]| > 0 && NoDot(ts[i])
    decreases |s|
  {
    if |s| == 0 then []
    else if s[0] == Dot then Tokens(s[1..])
    else
      var t := TakeToken(s);
      [t] + Tokens(s[|t|..])
  }

  predicate IsDigit(c: char) {
    '0' <= c <= '9'
  }

  function DigitValue(c: char): nat
    requires IsDigit(c)
  {
    c as int - '0' as int
  }

  /** The leading decimal digits of `s`. */
  function LeadingDigits(s: string): (t: string)
    ensures |t| <= |s| && t == s[..|t|]
    ensures forall k :: 0 <= k < |t| ==> IsDigit(t[k])
  {
    if |s| == 0 || !IsDigit(s[0]) then [] else [s[0]] + LeadingDigits(s[1..])
  }

  /** The number a string of decimal digits spells. */
  function DecimalValue(t: string): nat
    requires forall k :: 0 <= k < |t| ==> IsDigit(t[k])
  {
    if |t| == 0 then 0 else DecimalValue(t[..|t| - 1]) * 10 + DigitValue(t[|t| - 1])
  }

  /** `atoi` on a token: the value of its leading digits. */
  function Atoi(s: string): nat {
    DecimalValue(LeadingDigits(s))
  }

  /** `setVersion`: the first three dot-separated fields, each read as a
      decimal number and stored in a byte. With fewer than three fields
      `strtok` returns NULL and `atoi` is handed it, so at least three are
      required. */
  function SetVersion(v: string): (buffer: seq<byte>)
    requires |Tokens(v)| >= 3
    ensures |buffer| == 3
    ensures forall i :: 0 <= i < 3 ==> buffer[i] == LowByte(Atoi(Tokens(v)[i]))
  {
    var ts := Tokens(v);
    [LowByte(Atoi(ts[0])), LowByte(Atoi(ts[1])), LowByte(Atoi(ts[2]))]
  }

  /** The decimal spelling of `n`. */
  function Show(n: nat): (s: string)
    ensures |s| > 0 && forall k :: 0 <= k < |s| ==> IsDigit(s[k])
  {
    var digit := ['0' + (n % 10) as char];
    if n < 10 then digit else Show(n / 10) + digit
  }

  lemma {:induction false} ShowValue(n: nat)
    ensures DecimalValue(Show(n)) == n
    decreases n
  {
    if n >= 10 {
      ShowValue(n / 10);
      var s := Show(n);
      assert s[..|s| - 1] == Show(n / 10);
    }
  }

  lemma {:induction false} LeadingDigitsAll(s: string)
    requires forall k :: 0 <= k < |s| ==> IsDigit(s[k])
    ensures LeadingDigits(s) == s
    decreases |s|
  {
    if |s| > 0 {
      LeadingDigitsAll(s[1..]);
    }
  }

  /** `atoi` reads back what `Show` spells. */
  lemma AtoiShow(n: nat)
    ensures Atoi(Show(n)) == n
  {
    LeadingDigitsAll(Show(n));
    ShowValue(n);
  }

  lemma {:induction false} TakeTokenBeforeDot(x: string, rest: string)
    requires NoDot(x)
    requires |rest| == 0 || rest[0] == Dot
    ensures TakeToken(x + rest) == x
    decreases |x|
  {
    if |x| > 0 {
      assert (x + rest)[1..] == x[1..] + rest;
      TakeTokenBeforeDot(x[1..], rest);
    } else {
      assert x + rest == rest;
    }
  }

  /** A non-empty field without dots, followed by a dot and the rest,
      splits off as the first token. */
  lemma TokensCons(x: string, rest: string)
    requires |x| > 0 && NoDot(x)
    ensures Tokens(x + [Dot] + rest) == [x] + Tokens(rest)
  {
    var s := x + [Dot] + rest;
    TakeTokenBeforeDot(x, [Dot] + rest);
    assert s == x + ([Dot] + rest);
    assert s[|x|..] == [Dot] + rest;
    assert ([Dot] + rest)[1..] == rest;
  }

  lemma TokensOne(x: string)
    requires |x| > 0 && NoDot(x)
    ensures Tokens(x) == [x]
  {
    TakeTokenBeforeDot(x, []);
    assert x + [] == x;
  }

  /** Three dot-free fields joined by dots split back into those fields. */
  lemma TokensOfThree(a: string, b: string, c: string)
    requires |a| > 0 && NoDot(a) && |b| > 0 && NoDot(b) && |c| > 0 && NoDot(c)
    ensures Tokens(a + [Dot] + b + [Dot] + c) == [a, b, c]
  {
    var bc := b + [Dot] + c;
    assert a + [Dot] + b + [Dot] + c == a + [Dot] + bc;
    TokensCons(a, bc);
    TokensCons(b, c);
    TokensOne(c);
    assert [a] + ([b] + [c]) == [a, b, c];
  }

  /** The version string of three decimal fields yields those three
      numbers. */
  lemma SetVersionRoundTrip(major: byte, minor: byte, patch: byte)
    ensures var v := Show(major) + [Dot] + Show(minor) + [Dot] + Show(patch);
      |Tokens(v)| >= 3 && SetVersion(v) == [major, minor, patch]
  {
    var a, b, c := Show(major), Show(minor), Show(patch);
    var v := a + [Dot] + b + [Dot] + c;
    TokensOfThree(a, b, c);
    var ts := Tokens(v);
    assert ts == [a, b, c];
    AtoiShow(major);
    AtoiShow(minor);
    AtoiShow(patch);
    var buffer := SetVersion(v);
    assert buffer == [LowByte(Atoi(a)), LowByte(Atoi(b)), LowByte(Atoi(c))];
    LowByteOfByte(major);
    LowByteOfByte(minor);
    LowByteOfByte(patch);
  }

  lemma LowByteOfByte(x: byte)
    ensures LowByte(x) == x
  {
  }

  /** The firmware's version gives the version reply bytes 0, 0, 4. */
  lemma FirmwareVersion()
    ensures |Tokens(Version)| >= 3 && SetVersion(Version) == [0, 0, 4]
  {
    SetVersionRoundTrip(0, 0, 4);
    assert Show(0) + [Dot] + Show(0) + [Dot] + Show(4) == Version;
  }

  /** A device booted with the firmware's version answers an EXIOVER poll
      with 0, 0, 4. */
  lemma VersionReply(d: Device)
    requires Valid(d) && d.outboundFlag == ExioVer
    requires |Tokens(Version)| >= 3 && d.versionBuffer == SetVersion(Version)
    ensures RequestEvent(d) == [0, 0, 4]
  {
    FirmwareVersion();
  }

  /** A board started with the firmware's version string loaded into the
      version buffer answers an EXIOVER poll with 0, 0, 4. */
  lemma BootedVersionReply(pinMap: seq<PinDefinition>, numPins: byte, analoguePinMap: seq<byte>, cfg: BuildConfig)
    requires |pinMap| < 0x100 && numPins as int <= |pinMap|
    requires |analoguePinMap| >= Count(pinMap[..numPins], AnalogueClass)
    ensures |Tokens(Version)| >= 3 && |SetVersion(Version)| == 3
    ensures var d := Boot(pinMap, numPins, analoguePinMap, SetVersion(Version), cfg);
      RequestEvent(d.(outboundFlag := ExioVer)) == [0, 0, 4]
  {
    FirmwareVersion();
    var d := Boot(pinMap, numPins, analoguePinMap, SetVersion(Version), cfg);
    VersionReply(d.(outboundFlag := ExioVer));
  }

  /** A digital pin's displayed state: bit `pin - 8 * (pin / 8)` of byte
      `pin / 8`. */
  function DigitalPinState(store: PinStore, pin: nat): (high: bool)
    requires pin / 8 < |store.digitalStates|
    ensures high == BitRead(store.digitalStates[pin / 8], pin % 8)
  {
    var dPinByte := pin / 8;
    BitRead(store.digitalStates[dPinByte], pin - dPinByte * 8)
  }

  /** The display reads back the level a digital write recorded, and the
      write leaves every other pin's displayed state alone. */
  lemma DisplayShowsDigitalWrite(d: Device, pin: byte, high: bool, other: nat)
    requires Valid(d) && pin as int < |d.pinMap|
    requires Can(d.pinMap[pin], DigitalOutput) && pin as int / 8 < |d.store.digitalStates|
    requires DigitalClaimAllowed(d.store.pins[pin])
    requires other != pin as int && other / 8 < |d.store.digitalStates|
    ensures var e := DigitalWriteCommand(d, pin, high).dev;
      && DigitalPinState(e.store, pin as int) == high
      && DigitalPinState(e.store, other) == DigitalPinState(d.store, other)
  {
    var e := DigitalWriteCommand(d, pin, high).dev;
    if other / 8 == pin as int / 8 {
      assert other % 8 != pin as int % 8;
    }
  }

  /** An analogue pin's displayed value: the byte after `lsbByte` is the
      high byte. */
  function AnalogueValue(states: seq<byte>, lsbByte: nat): (value: uint16)
    requires lsbByte + 1 < |states|
    ensures value % 0x100 == states[lsbByte] && value / 0x100 == states[lsbByte + 1]
  {
    states[lsbByte + 1] as int * 0x100 + states[lsbByte] as int
  }

  /** A 16-bit value stored little-endian at `lsbByte` displays as itself. */
  lemma AnalogueValueRoundTrip(states: seq<byte>, lsbByte: nat, value: uint16)
    requires lsbByte + 1 < |states|
    ensures AnalogueValue(states[lsbByte := value % 0x100][lsbByte + 1 := value / 0x100], lsbByte) == value
  {
  }

  /** One line of the diagnostic pin display. */
  datatype PinReport =
    | NotInUse(physicalPin: byte)
    | DigitalReport(physicalPin: byte, isInput: bool, pullup: bool, high: bool)
    | AnalogueReport(physicalPin: byte, value: uint16, lsb: byte, msb: byte)
    | PwmReport(physicalPin: byte)
    | Silent

  /** What the display prints for a pin, chosen by its mode; a mode that
      is none of the four prints nothing. `lsbByte` is the pin's analogue
      buffer offset, which no modelled code sets. */
  function ReportPin(d: Device, pin: nat, lsbByte: nat): (r: PinReport)
    requires Valid(d) && pin < |d.pinMap|
    requires d.store.pins[pin].mode == ModeDigital ==> pin / 8 < |d.store.digitalStates|
    requires d.store.pins[pin].mode == ModeAnalogue ==> lsbByte + 1 < |d.store.analogueStates|
    ensures d.store.pins[pin].mode !in {ModeUnused, ModeDigital, ModeAnalogue, ModePwm} <==> r == Silent
    ensures d.store.pins[pin].mode == ModeUnused ==> r == NotInUse(d.pinMap[pin].physicalPin)
    ensures d.store.pins[pin].mode == ModePwm ==> r == PwmReport(d.pinMap[pin].physicalPin)
    ensures d.store.pins[pin].mode == ModeDigital ==>
      && r.DigitalReport? && r.physicalPin == d.pinMap[pin].physicalPin
      && r.isInput == d.store.pins[pin].isInput && r.pullup == d.store.pins[pin].pullup
      && r.high == DigitalPinState(d.store, pin)
    ensures d.store.pins[pin].mode == ModeAnalogue ==>
      r.AnalogueReport? && r.physicalPin == d.pinMap[pin].physicalPin && r.value == LittleEndian16(d.store.analogueStates[lsbByte], d.store.analogueStates[lsbByte + 1])
  {
    var pc := d.store.pins[pin];
    var physical := d.pinMap[pin].physicalPin;
    if pc.mode == ModeUnused then NotInUse(physical)
    else if pc.mode == ModeDigital then DigitalReport(physical, pc.isInput, pc.pullup, DigitalPinState(d.store, pin))
    else if pc.mode == ModeAnalogue then
      var states := d.store.analogueStates;
      AnalogueReport(physical, AnalogueValue(states, lsbByte), states[lsbByte], states[lsbByte + 1])
    else if pc.mode == ModePwm then PwmReport(physical)
    else Silent
  }

  /** In output test mode the pins under test carry the capability bit
      index `DigitalOutput` as their mode, so the display prints nothing
      for them exactly when that index is none of the four mode numbers,
      as it is with the numbering of this model. */
  lemma OutputTestPinsNotDisplayed(d: Device, pin: nat, lsbByte: nat)
    requires Valid(d) && pin < d.numPins as int && Can(d.pinMap[pin], DigitalOutput)
    ensures Test(d, OutputTest, true).store.pins[pin].mode == DigitalOutput
    ensures ReportPin(Test(d, OutputTest, true), pin, lsbByte) == Silent
      <==> DigitalOutput !in {ModeUnused, ModeDigital, ModeAnalogue, ModePwm}
    ensures ReportPin(Test(d, OutputTest, true), pin, lsbByte) == Silent
  {
    OutputTestModeIsNotAMode(d, pin);
  }
}

=== FILE: globals.dfy ===
/** The firmware's shared state: the board table, the start-up counts, the
    pin store, the bus-facing buffers and flags, and the console's
    diagnostic and test-mode switches. */
module Globals {
  import opened Bytes
  import opened PinMap
  import opened PinIo

  /** The four console test modes. */
  datatype TestFlags = TestFlags(analogue: bool, input: bool, output: bool, pullup: bool) {
    predicate Any() {
      analogue || input || output || pullup
    }
  }

  const NoTesting := TestFlags(false, false, false, false)

  /** The build-time settings that fix the start-up values of the console
      switches: whether the `DIAG` option is defined, and the display delay
      `DIAG_CONFIG_DELAY * 1000` in milliseconds. */
  datatype BuildConfig = BuildConfig(diag: bool, displayDelay: uint32)

  /** The example configuration: `DIAG` left undefined and a 5 s delay. */
  const ExampleConfig := BuildConfig(false, 5000)

  datatype Device = Device(
    pinMap: seq<PinDefinition>,
    numPins: byte,
    counts: PinCounts,
    store: PinStore,
    analoguePinMap: seq<byte>,
    versionBuffer: seq<byte>,
    firstVpin: uint16,
    setupComplete: bool,
    outboundFlag: byte,
    diag: bool,
    displayDelay: uint32,
    testing: TestFlags,
    config: BuildConfig)

  /** Sizes agree: one record per table entry, buffers as sized at start-up,
      a three-byte version, and a table the source's `uint8_t` pin loops can
      walk. */
  predicate Valid(d: Device) {
    && |d.pinMap| < 0x100
    && d.numPins as int <= |d.pinMap|
    && |d.store.pins| == |d.pinMap|
    && |d.store.digitalStates| == d.counts.digitalBytes
    && |d.store.analogueStates| == d.counts.analogueBytes
    && |d.analoguePinMap| >= d.counts.numAnalogue as int
    && |d.versionBuffer| == 3
  }

  /** Nothing but the pin store, the bus flags and the test switches may
      differ: the table, counts and buffer sizes are fixed after start-up. */
  predicate SameBoard(d: Device, e: Device) {
    && e.pinMap == d.pinMap && e.numPins == d.numPins && e.counts == d.counts
    && e.analoguePinMap == d.analoguePinMap && e.versionBuffer == d.versionBuffer && e.config == d.config
    && |e.store.pins| == |d.store.pins|
    && |e.store.digitalStates| == |d.store.digitalStates|
    && |e.store.analogueStates| == |d.store.analogueStates|
  }

  /** The state after start-up for a board table whose first `numPins`
      entries are in use, with the digital buffer `digitalBytes` long: every
      pin reset, nothing configured by the host, diagnostics and the display
      delay as the build configuration sets them, no test running. */
  function Start(pinMap: seq<PinDefinition>, numPins: byte, analoguePinMap: seq<byte>, version: seq<byte>,
                 digitalBytes: nat, cfg: BuildConfig): (d: Device)
    requires |pinMap| < 0x100 && numPins as int <= |pinMap|
    requires |analoguePinMap| >= Count(pinMap[..numPins], AnalogueClass) && |version| == 3
    ensures Valid(d) && StoreIsReset(pinMap, d.store)
    ensures d.pinMap == pinMap && d.numPins == numPins && d.analoguePinMap == analoguePinMap
    ensures d.counts.numDigital == Count(pinMap[..numPins], DigitalClass)
    ensures d.counts.numAnalogue == Count(pinMap[..numPins], AnalogueClass)
    ensures d.counts.numPwm == Count(pinMap[..numPins], PwmClass)
    ensures d.counts.analogueBytes == 2 * d.counts.numAnalogue
    ensures |d.store.digitalStates| == digitalBytes
    ensures d.versionBuffer == version
    ensures d.firstVpin == 0 && !d.setupComplete && d.outboundFlag == 0
    ensures d.diag == cfg.diag && d.displayDelay == cfg.displayDelay && d.testing == NoTesting
    ensures d.config == cfg
  {
    var used := pinMap[..numPins];
    var numAnalogue := Count(used, AnalogueClass);
    var counts := PinCounts(Count(used, DigitalClass), numAnalogue, Count(used, PwmClass),
      2 * numAnalogue, digitalBytes);
    var empty := PinStore([], seq(digitalBytes, _ => 0), seq(counts.analogueBytes, _ => 0));
    Device(pinMap, numPins, counts, InitialisePins(pinMap, empty), analoguePinMap, version,
      0, false, 0, cfg.diag, cfg.displayDelay, NoTesting, cfg)
  }

  /** The state after start-up as the firmware builds it: the digital
      buffer gets `numDigitalPins / 8` bytes, rounded down, as
      `SetupPinDetails` computes. */
  function Boot(pinMap: seq<PinDefinition>, numPins: byte, analoguePinMap: seq<byte>, version: seq<byte>,
                cfg: BuildConfig): (d: Device)
    requires |pinMap| < 0x100 && numPins as int <= |pinMap|
    requires |analoguePinMap| >= Count(pinMap[..numPins], AnalogueClass) && |version| == 3
    ensures Valid(d) && StoreIsReset(pinMap, d.store)
    ensures d.counts.numDigital == Count(pinMap[..numPins], DigitalClass)
    ensures |d.store.digitalStates| == d.counts.digitalBytes == d.counts.numDigital as int / 8
    ensures d.versionBuffer == version && d.config == cfg
  {
    Start(pinMap, numPins, analoguePinMap, version, Count(pinMap[..numPins], DigitalClass) / 8, cfg)
  }

  /** Built with the example configuration, a board starts with
      diagnostics off and a 5000 ms display delay. */
  lemma ExampleBootDefaults(pinMap: seq<PinDefinition>, numPins: byte, analoguePinMap: seq<byte>, version: seq<byte>)
    requires |pinMap| < 0x100 && numPins as int <= |pinMap|
    requires |analoguePinMap| >= Count(pinMap[..numPins], AnalogueClass) && |version| == 3
    ensures var d := Boot(pinMap, numPins, analoguePinMap, version, ExampleConfig);
      !d.diag && d.displayDelay == 5000
  {
  }

  /** A software reboot on a board whose `reset` restarts it (AVR through
      the watchdog, STM32 through a system reset): setup runs again on the
      same board, built with the same configuration, so every RAM field is
      back at its start-up value. The table, the counts and the buffer
      sizes come out as before. */
  function Restart(d: Device): (e: Device)
    requires Valid(d)
    ensures Valid(e) && SameBoard(d, e) && StoreIsReset(d.pinMap, e.store)
    ensures e.firstVpin == 0 && !e.setupComplete && e.outboundFlag == 0
    ensures e.diag == d.config.diag && e.displayDelay == d.config.displayDelay && e.testing == NoTesting
  {
    d.(store := InitialisePins(d.pinMap, d.store), firstVpin := 0, setupComplete := false, outboundFlag := 0,
       diag := d.config.diag, displayDelay := d.config.displayDelay, testing := NoTesting)
  }

  /** Whatever has happened since start-up on the same board, a reboot
      gives back exactly the state start-up built. */
  lemma RestartGivesBoot(pinMap: seq<PinDefinition>, numPins: byte, analoguePinMap: seq<byte>, version: seq<byte>,
                         cfg: BuildConfig, e: Device)
    requires |pinMap| < 0x100 && numPins as int <= |pinMap|
    requires |analoguePinMap| >= Count(pinMap[..numPins], AnalogueClass) && |version| == 3
    requires SameBoard(Boot(pinMap, numPins, analoguePinMap, version, cfg), e)
    ensures Valid(e) && Restart(e) == Boot(pinMap, numPins, analoguePinMap, version, cfg)
  {
    var d := Boot(pinMap, numPins, analoguePinMap, version, cfg);
    ResetIsUnique(pinMap, Restart(e).store, d.store);
  }

  /** As written, the Mega-shaped table boots with a 7-byte digital buffer,
      which has no byte for its digital-output pin 61: a digital write to
      that pin indexes past the buffer. */
  lemma BootAsWrittenTooShort(analoguePinMap: seq<byte>, version: seq<byte>, cfg: BuildConfig)
    requires |analoguePinMap| >= 62 && |version| == 3
    ensures var m := MegaShaped();
      |m| == 62 && Count(m[..62], AnalogueClass) <= |analoguePinMap| &&
      var d := Boot(m, 62, analoguePinMap, version, cfg);
      && |d.store.digitalStates| == 7
      && Can(d.pinMap[61], DigitalOutput)
      && !(61 / 8 < |d.store.digitalStates|)
  {
    var m := MegaShaped();
    DigitalBufferAsWrittenTooShort();
    assert m[..62] == m;
  }

  /** The state after start-up with the digital buffer rounded up, so that
      every digital-capable pin has its bit when digital pins come first. */
  function BootCorrected(pinMap: seq<PinDefinition>, numPins: byte, analoguePinMap: seq<byte>, version: seq<byte>,
                         cfg: BuildConfig): (d: Device)
    requires |pinMap| < 0x100 && numPins as int <= |pinMap|
    requires |analoguePinMap| >= Count(pinMap[..numPins], AnalogueClass) && |version| == 3
    ensures Valid(d) && StoreIsReset(pinMap, d.store)
    ensures |d.store.digitalStates| == DigitalPinBytes(d.counts.numDigital as int)
    ensures DigitalFirst(pinMap[..numPins]) ==>
      forall p :: 0 <= p < numPins as int && InClass(pinMap[p], DigitalClass) ==> p / 8 < |d.store.digitalStates|
  {
    var used := pinMap[..numPins];
    var d := Start(pinMap, numPins, analoguePinMap, version, DigitalPinBytes(Count(used, DigitalClass)), cfg);
    assert DigitalFirst(used) ==>
      forall p :: 0 <= p < numPins as int && InClass(pinMap[p], DigitalClass) ==> p / 8 < |d.store.digitalStates|
    by {
      if DigitalFirst(used) {
        forall p | 0 <= p < numPins as int && InClass(pinMap[p], DigitalClass)
          ensures p / 8 < |d.store.digitalStates|
        {
          DigitalBufferCoversDigitalPins(used, p);
        }
      }
    }
    d
  }
}

=== FILE: hardware.dfy ===
/** What the firmware does to the outside world, recorded as events instead
    of performed: Arduino pin calls and the error lines the console prints
    when a command is refused. */
module Hardware {
  import opened Bytes

  /** Why a pin command was refused. */
  datatype Reason =
    | InUse(wanted: Use)        // "already in use, cannot use as ..."
    | NotCapable(wanted: Use)   // "not capable of ..."

  datatype Use = DigitalIn | DigitalOut | AnalogueIn | PwmOut

  datatype Event =
    | PinModeInput(physicalPin: byte)
    | PinModeInputPullup(physicalPin: byte)
    | PinModeOutput(physicalPin: byte)
    | DigitalWrite(physicalPin: byte, high: bool)
    | AnalogWrite(physicalPin: byte, value: uint16)
    | Refused(physicalPin: byte, reason: Reason)
    | BadLength(opcode: byte)    // diagnostic for a frame of the wrong size

  predicate IsRefusal(e: Event) {
    e.Refused?
  }

  /** No event of `events` drives a pin. */
  predicate NoPinDrive(events: seq<Event>) {
    forall k :: 0 <= k < |events| ==> events[k].Refused? || events[k].BadLength?
  }
}

=== FILE: i2c.dfy ===
/** The bus command dispatcher: `receiveEvent` decodes one inbound frame
    (an opcode byte followed by a fixed number of argument bytes) and updates
    the pin store and flags; `requestEvent` picks the bytes returned on the
    host's next poll. */
module I2c {
  import opened Bytes
  import opened Options
  import opened PinMap
  import opened Hardware
  import opened PinIo
  import opened Globals

  /** Opcodes. EXIOINITA, EXIOPINS and EXIOWRAN are not defined in the
      modelled files; the values chosen here are distinct from the others. */
  const ExioInit: byte := 0xE0
  const ExioDpup: byte := 0xE2
  const ExioVer: byte := 0xE3
  const ExioRdan: byte := 0xE4
  const ExioWrd: byte := 0xE5
  const ExioRdd: byte := 0xE6
  const ExioEnan: byte := 0xE7
  const ExioInitA: byte := 0xE8
  const ExioPins: byte := 0xE9
  const ExioWran: byte := 0xEA

  /** The frame length each opcode is accepted with; `None` for bytes the
      dispatcher ignores. */
  function Arity(op: byte): Option<nat> {
    if op == ExioInit || op == ExioWran then Some(4)
    else if op == ExioInitA || op == ExioRdan || op == ExioRdd || op == ExioVer then Some(1)
    else if op == ExioDpup || op == ExioWrd then Some(3)
    else if op == ExioEnan then Some(2)
    else None
  }

  predicate IsReadOpcode(op: byte) {
    op == ExioInitA || op == ExioRdan || op == ExioRdd || op == ExioVer
  }

  predicate WellSized(frame: seq<byte>) {
    |frame| > 0 && Arity(frame[0]) == Some(|frame|)
  }

  /** A new state and the hardware calls made on the way. */
  datatype Step = Step(dev: Device, events: seq<Event>)

  /** The source never checks the pin byte of a frame against the table,
      nor the digital buffer index of a digital write: the caller must. */
  predicate FrameInRange(d: Device, frame: seq<byte>) {
    WellSized(frame) && (frame[0] == ExioDpup || frame[0] == ExioWrd || frame[0] == ExioEnan || frame[0] == ExioWran)
    ==> && frame[1] as int < |d.pinMap|
        && (frame[0] == ExioWrd && Can(d.pinMap[frame[1]], DigitalOutput) ==>
              frame[1] as int / 8 < |d.store.digitalStates|)
  }

  /** EXIOINIT: reset all pins, record the first Vpin and whether the host's
      pin count matches ours, and arm the EXIOINIT reply. */
  function Init(d: Device, frame: seq<byte>): (e: Device)
    requires Valid(d) && |frame| == 4
    ensures Valid(e) && SameBoard(d, e)
    ensures StoreIsReset(d.pinMap, e.store)
    ensures e.firstVpin == frame[2] as int + 256 * frame[3] as int
    ensures e.setupComplete <==> frame[1] == d.numPins
    ensures e.outboundFlag == ExioInit
    ensures e.diag == d.diag && e.testing == d.testing && e.displayDelay == d.displayDelay
  {
    d.(store := InitialisePins(d.pinMap, d.store),
       firstVpin := LittleEndian16(frame[2], frame[3]),
       setupComplete := frame[1] == d.numPins,
       outboundFlag := ExioInit)
  }

  /** EXIODPUP: a free pin becomes an enabled digital input with the given
      pullup; a pin already claimed is left as it is, and reported when it
      is claimed as an output of another mode. No capability check. */
  function DigitalPullup(d: Device, pin: byte, pullup: bool): (r: Step)
    requires Valid(d) && pin as int < |d.pinMap|
    ensures Valid(r.dev) && SameBoard(d, r.dev)
    ensures var pc := d.store.pins[pin];
      !pc.enable ==>
        && r.dev.store.pins == d.store.pins[pin := PinConfig(true, ModeDigital, true, pullup)]
        && r.events == [if pullup then PinModeInputPullup(d.pinMap[pin].physicalPin)
                        else PinModeInput(d.pinMap[pin].physicalPin)]
    ensures d.store.pins[pin].enable ==> r.dev == d && NoPinDrive(r.events)
    ensures r.dev.store.digitalStates == d.store.digitalStates
    ensures r.dev.store.analogueStates == d.store.analogueStates
    ensures r.dev == d.(store := r.dev.store)
  {
    var pc := d.store.pins[pin];
    var physical := d.pinMap[pin].physicalPin;
    if pc.enable && pc.mode != ModeDigital && !pc.isInput then
      Step(d, [Refused(physical, InUse(DigitalIn))])
    else if !pc.enable then
      var pins := d.store.pins[pin := PinConfig(true, ModeDigital, true, pullup)];
      Step(d.(store := d.store.(pins := pins)),
           [if pullup then PinModeInputPullup(physical) else PinModeInput(physical)])
    else
      Step(d, [])
  }

  /** A digital write to a pin that is free or already a digital output. */
  predicate DigitalClaimAllowed(pc: PinConfig) {
    !pc.enable || (!pc.isInput && pc.mode == ModeDigital)
  }

  /** EXIOWRD: on a digital-output-capable pin that is free or already a
      digital output, claim it as a digital output, record the level as bit
      `pin % 8` of byte `pin / 8` and drive it. Anything else is refused
      and changes nothing. */
  function DigitalWriteCommand(d: Device, pin: byte, high: bool): (r: Step)
    requires Valid(d) && pin as int < |d.pinMap|
    requires Can(d.pinMap[pin], DigitalOutput) ==> pin as int / 8 < |d.store.digitalStates|
    ensures Valid(r.dev) && SameBoard(d, r.dev)
    ensures !Can(d.pinMap[pin], DigitalOutput) || !DigitalClaimAllowed(d.store.pins[pin]) ==>
      r.dev == d && NoPinDrive(r.events) && |r.events| == 1
    ensures Can(d.pinMap[pin], DigitalOutput) && DigitalClaimAllowed(d.store.pins[pin]) ==>
      var byteIndex := pin as int / 8;
      var states := r.dev.store.digitalStates;
      && r.dev.store.pins[pin] == PinConfig(true, ModeDigital, false, d.store.pins[pin].pullup)
      && (forall q :: 0 <= q < |d.store.pins| && q != pin as int ==> r.dev.store.pins[q] == d.store.pins[q])
      && BitRead(states[byteIndex], pin as int % 8) == high
      && (forall j :: 0 <= j < 8 && j != pin as int % 8 ==>
            BitRead(states[byteIndex], j) == BitRead(d.store.digitalStates[byteIndex], j))
      && (forall k :: 0 <= k < |states| && k != byteIndex ==> states[k] == d.store.digitalStates[k])
      && |r.events| > 0 && r.events[|r.events| - 1] == DigitalWrite(d.pinMap[pin].physicalPin, high)
    ensures r.dev == d.(store := r.dev.store)
    ensures r.dev.store.analogueStates == d.store.analogueStates
  {
    var pc := d.store.pins[pin];
    var physical := d.pinMap[pin].physicalPin;
    if !Can(d.pinMap[pin], DigitalOutput) then
      Step(d, [Refused(physical, NotCapable(DigitalOut))])
    else if pc.enable && (pc.isInput || pc.mode != ModeDigital) then
      Step(d, [Refused(physical, InUse(DigitalOut))])
    else
      var claim := if !pc.enable then [PinModeOutput(physical)] else [];
      var pins := if !pc.enable then d.store.pins[pin := PinConfig(true, ModeDigital, false, pc.pullup)]
                  else d.store.pins;
      var byteIndex := pin as int / 8;
      var states := d.store.digitalStates[byteIndex := BitWrite(d.store.digitalStates[byteIndex], pin as int % 8, high)];
      Step(d.(store := PinStore(pins, states, d.store.analogueStates)), claim + [DigitalWrite(physical, high)])
  }

  /** One inbound frame. An empty frame, an unknown opcode, or a frame
      whose length is not its opcode's arity leaves the state exactly as it
      was. Read opcodes only arm the reply. */
  function ReceiveEvent(d: Device, frame: seq<byte>): (r: Step)
    requires Valid(d) && FrameInRange(d, frame)
    ensures Valid(r.dev) && SameBoard(d, r.dev)
    ensures !WellSized(frame) ==> r.dev == d && NoPinDrive(r.events)
    ensures |frame| == 0 ==> r.events == []
    ensures WellSized(frame) && IsReadOpcode(frame[0]) ==>
      r == Step(d.(outboundFlag := frame[0]), [])
    ensures r.dev.diag == d.diag && r.dev.testing == d.testing && r.dev.displayDelay == d.displayDelay
    ensures r.dev.outboundFlag != d.outboundFlag ==>
      WellSized(frame) && (frame[0] == ExioInit || IsReadOpcode(frame[0])) && r.dev.outboundFlag == frame[0]
  {
    if |frame| == 0 then Step(d, [])
    else
      var op := frame[0];
      if Arity(op).None? then Step(d, [])
      else if |frame| != Arity(op).value then
        Step(d, if d.diag && (op == ExioInit || op == ExioInitA || op == ExioDpup) then [BadLength(op)] else [])
      else if op == ExioInit then Step(Init(d, frame), [])
      else if IsReadOpcode(op) then Step(d.(outboundFlag := op), [])
      else if op == ExioDpup then DigitalPullup(d, frame[1], frame[2] != 0)
      else if op == ExioWrd then DigitalWriteCommand(d, frame[1], frame[2] != 0)
      else if op == ExioEnan then
        var s := EnableAnalogue(d.pinMap, d.store.pins, frame[1]);
        Step(d.(store := d.store.(pins := s.pins)), s.events)
      else
        var s := WriteAnalogue(d.pinMap, d.store.pins, frame[1], LittleEndian16(frame[2], frame[3]));
        Step(d.(store := d.store.(pins := s.pins)), s.events)
  }

  /** The bytes written back when the host polls: the pin counts after a
      matching EXIOINIT (zeros otherwise), the analogue pin map, the
      analogue or digital state buffers, or the version. Polling changes
      no state, so the same reply kind repeats until another command. */
  function RequestEvent(d: Device): (reply: seq<byte>)
    requires Valid(d)
    ensures d.outboundFlag == ExioInit ==>
      reply == (if d.setupComplete then [ExioPins, d.counts.numDigital, d.counts.numAnalogue] else [0, 0, 0])
    ensures d.outboundFlag == ExioInitA ==> reply == d.analoguePinMap[..d.counts.numAnalogue]
    ensures d.outboundFlag == ExioRdan ==> reply == d.store.analogueStates
    ensures d.outboundFlag == ExioRdd ==>
      |reply| == |d.store.digitalStates| &&
      forall k :: 0 <= k < |reply| ==> reply[k] == d.store.digitalStates[k] as int
    ensures d.outboundFlag == ExioVer ==> reply == d.versionBuffer
    ensures !(d.outboundFlag in {ExioInit, ExioInitA, ExioRdan, ExioRdd, ExioVer}) ==> reply == []
  {
    var flag := d.outboundFlag;
    if flag == ExioInit then
      if d.setupComplete then [ExioPins, d.counts.numDigital, d.counts.numAnalogue] else [0, 0, 0]
    else if flag == ExioInitA then d.analoguePinMap[..d.counts.numAnalogue]
    else if flag == ExioRdan then d.store.analogueStates
    else if flag == ExioRdd then Unpack(d.store.digitalStates)
    else if flag == ExioVer then d.versionBuffer
    else []
  }

  /** Repeating a digital write frame is idempotent. */
  lemma DigitalWriteIdempotent(d: Device, pin: byte, level: byte)
    requires Valid(d) && FrameInRange(d, [ExioWrd, pin, level])
    ensures var once := ReceiveEvent(d, [ExioWrd, pin, level]).dev;
      FrameInRange(once, [ExioWrd, pin, level]) &&
      ReceiveEvent(once, [ExioWrd, pin, level]).dev == once
  {
    var f := [ExioWrd, pin, level];
    assert WellSized(f);
    var once := ReceiveEvent(d, f).dev;
    if Can(d.pinMap[pin], DigitalOutput) && DigitalClaimAllowed(d.store.pins[pin]) {
      var i := pin as int / 8;
      var twice := ReceiveEvent(once, f).dev;
      BitWriteIdempotent(d.store.digitalStates[i], pin as int % 8, level != 0);
      assert twice.store.digitalStates == once.store.digitalStates;
      assert twice.store.pins == once.store.pins;
    }
  }

  /** A matching EXIOINIT followed by a poll returns EXIOPINS and the pin
      counts, and a digital read after it returns all-zero bytes. */
  lemma InitThenPoll(d: Device, first: uint16)
    requires Valid(d)
    ensures var init := [ExioInit, d.numPins, first % 256, first / 256];
      var e := ReceiveEvent(d, init).dev;
      && e.firstVpin == first
      && RequestEvent(e) == [ExioPins, d.counts.numDigital, d.counts.numAnalogue]
      && var reply := RequestEvent(ReceiveEvent(e, [ExioRdd]).dev);
         |reply| == d.counts.digitalBytes && forall k :: 0 <= k < |reply| ==> reply[k] == 0
  {
    var init := [ExioInit, d.numPins, first % 256, first / 256];
    assert WellSized(init);
    assert WellSized([ExioRdd]);
  }

  /** A mismatching pin count in EXIOINIT still resets the pins but makes
      the poll answer with zeros. */
  lemma InitMismatchPollsZero(d: Device, count: byte, lo: byte, hi: byte)
    requires Valid(d) && count != d.numPins
    ensures var e := ReceiveEvent(d, [ExioInit, count, lo, hi]).dev;
      !e.setupComplete && StoreIsReset(d.pinMap, e.store) && RequestEvent(e) == [0, 0, 0]
  {
    assert WellSized([ExioInit, count, lo, hi]);
  }

  /** EXIOWRAN's value is the little-endian pair of argument bytes 2 and 3. */
  lemma AnalogueWriteDecodesLittleEndian(d: Device, pin: byte, lo: byte, hi: byte)
    requires Valid(d) && FrameInRange(d, [ExioWran, pin, lo, hi])
    requires Can(d.pinMap[pin], PwmOutput) && PwmClaimAllowed(d.store.pins[pin])
    ensures ReceiveEvent(d, [ExioWran, pin, lo, hi]).events
         == [AnalogWrite(d.pinMap[pin].physicalPin, lo as int + 256 * hi as int)]
  {
    assert WellSized([ExioWran, pin, lo, hi]);
  }
}

=== FILE: options.dfy ===
/** An optional value, for the firmware's "nothing there" cases: a missing
    servo record, an unknown opcode, a pin that was not written. */
module Options {
  datatype Option<T> = None | Some(value: T)
}

=== FILE: pin_io.dfy ===
/** The pin claim/state store: one configuration record per logical pin,
    the packed digital-state bitset and the analogue value bytes, with the
    start-up counting, the reset, and the analogue-input and PWM claims. */
module PinIo {
  import opened Bytes
  import opened PinMap
  import opened Hardware

  /** Pin modes. Their numeric values are not part of the modelled files;
      reset writes 0, and the three claimed modes are distinct from 0 and
      from every capability bit index. */
  const ModeUnused: byte := 0
  const ModeDigital: byte := 2
  const ModeAnalogue: byte := 3
  const ModePwm: byte := 4

  /** One logical pin's runtime state; `isInput` is the source's
      `direction == 1`. */
  datatype PinConfig = PinConfig(enable: bool, mode: byte, isInput: bool, pullup: bool)

  /** The pin records and the two state buffers sent to the host. */
  datatype PinStore = PinStore(pins: seq<PinConfig>, digitalStates: seq<bv8>, analogueStates: seq<byte>)

  /** The pin counts and buffer sizes worked out at start-up. */
  datatype PinCounts = PinCounts(
    numDigital: byte, numAnalogue: byte, numPwm: byte,
    analogueBytes: nat, digitalBytes: nat)

  /** A pin operation's new pin records and the hardware calls it made. */
  datatype PinStep = PinStep(pins: seq<PinConfig>, events: seq<Event>)

  /** Counts the analogue, digital and PWM pins among the first `numPins`
      entries of the table and sizes the two state buffers from them. The
      digital buffer gets `numDigital / 8` bytes, rounded down. */
  method SetupPinDetails(pinMap: seq<PinDefinition>, numPins: byte) returns (c: PinCounts)
    requires numPins as int <= |pinMap|
    ensures c.numAnalogue == Count(pinMap[..numPins], AnalogueClass)
    ensures c.numDigital == Count(pinMap[..numPins], DigitalClass)
    ensures c.numPwm == Count(pinMap[..numPins], PwmClass)
    ensures c.analogueBytes == 2 * c.numAnalogue
    ensures c.digitalBytes == c.numDigital / 8
  {
    var numAnalogue: byte, numDigital: byte, numPwm: byte := 0, 0, 0;
    var pin := 0;
    while pin < numPins as int
      invariant 0 <= pin <= numPins as int
      invariant numAnalogue == Count(pinMap[..pin], AnalogueClass)
      invariant numDigital == Count(pinMap[..pin], DigitalClass)
      invariant numPwm == Count(pinMap[..pin], PwmClass)
    {
      assert pinMap[..pin + 1][..pin] == pinMap[..pin];
      if Can(pinMap[pin], AnalogueInput) {
        numAnalogue := numAnalogue + 1;
      }
      if Can(pinMap[pin], DigitalInput) || Can(pinMap[pin], DigitalOutput) {
        numDigital := numDigital + 1;
      }
      if Can(pinMap[pin], PwmOutput) {
        numPwm := numPwm + 1;
      }
      pin := pin + 1;
    }
    c := PinCounts(numDigital, numAnalogue, numPwm, numAnalogue * 2, numDigital / 8);
  }

  /** The digital buffer size that gives every digital-capable pin a bit:
      `numDigital / 8` rounded up. */
  function DigitalPinBytes(numDigital: nat): nat {
    (numDigital + 7) / 8
  }

  /** With the rounded-up size, a write to any digital-capable pin stays
      inside the digital buffer. */
  lemma DigitalBufferCoversDigitalPins(m: seq<PinDefinition>, p: nat)
    requires DigitalFirst(m)
    requires p < |m| && InClass(m[p], DigitalClass)
    ensures p / 8 < DigitalPinBytes(Count(m, DigitalClass))
  {
    var prefix := m[..p + 1];
    forall k | 0 <= k < |prefix| ensures InClass(prefix[k], DigitalClass) {
      if k < p {
        assert InClass(m[k], DigitalClass);
      }
    }
    CountAll(prefix, DigitalClass);
    CountMonotone(m, p + 1, DigitalClass);
  }

  /** A table shaped like the Mega's: 46 digital pins, then A0-A15, which
      are analogue and digital capable. Physical pin numbers play no part. */
  function MegaShaped(): (m: seq<PinDefinition>)
    ensures |m| == 62
  {
    seq(46, _ => PinDefinition(0, DIO)) + seq(16, _ => PinDefinition(0, AIDIO))
  }

  /** With the source's rounded-down size, the Mega-shaped table gets 7
      bytes, 56 bits, yet pin 61 is digital-output capable and its bit
      lives in byte 7. */
  lemma DigitalBufferAsWrittenTooShort()
    ensures var m := MegaShaped();
      && |m| == 62
      && Can(m[61], DigitalOutput)
      && Count(m, DigitalClass) / 8 == 7
      && 61 / 8 == 7
  {
    var m := MegaShaped();
    forall k | 0 <= k < |m| ensures InClass(m[k], DigitalClass) {
      if k < 46 { assert m[k] == PinDefinition(0, DIO); } else { assert m[k] == PinDefinition(0, AIDIO); }
    }
    CountAll(m, DigitalClass);
    assert m[61] == PinDefinition(0, AIDIO);
  }

  /** The state `initialisePins` leaves a pin in. */
  predicate IsReset(pd: PinDefinition, pc: PinConfig) {
    && !pc.enable && pc.mode == ModeUnused && !pc.pullup
    && (pc.isInput <==> Can(pd, DigitalInput) || Can(pd, AnalogueInput))
  }

  /** Every pin and every buffer byte in its reset state. */
  predicate StoreIsReset(pinMap: seq<PinDefinition>, s: PinStore) {
    && |s.pins| == |pinMap|
    && (forall p :: 0 <= p < |pinMap| ==> IsReset(pinMap[p], s.pins[p]))
    && (forall k :: 0 <= k < |s.digitalStates| ==> s.digitalStates[k] == 0)
    && (forall k :: 0 <= k < |s.analogueStates| ==> s.analogueStates[k] == 0)
  }

  /** Disables every pin, makes it an input where it can read, and zeroes
      both state buffers (their sizes are kept). */
  function InitialisePins(pinMap: seq<PinDefinition>, s: PinStore): (r: PinStore)
    ensures StoreIsReset(pinMap, r)
    ensures |r.digitalStates| == |s.digitalStates| && |r.analogueStates| == |s.analogueStates|
  {
    PinStore(
      seq(|pinMap|, p requires 0 <= p < |pinMap| =>
        PinConfig(false, ModeUnused, Can(pinMap[p], DigitalInput) || Can(pinMap[p], AnalogueInput), false)),
      seq(|s.digitalStates|, _ => 0),
      seq(|s.analogueStates|, _ => 0))
  }

  /** The reset state is unique for a given table and buffer sizes. */
  lemma ResetIsUnique(pinMap: seq<PinDefinition>, a: PinStore, b: PinStore)
    requires StoreIsReset(pinMap, a) && StoreIsReset(pinMap, b)
    requires |a.digitalStates| == |b.digitalStates| && |a.analogueStates| == |b.analogueStates|
    ensures a == b
  {
    assert a.pins == b.pins;
    assert a.digitalStates == b.digitalStates;
    assert a.analogueStates == b.analogueStates;
  }

  /** Resetting twice is resetting once. */
  lemma InitialisePinsIdempotent(pinMap: seq<PinDefinition>, s: PinStore)
    ensures InitialisePins(pinMap, InitialisePins(pinMap, s)) == InitialisePins(pinMap, s)
  {
    ResetIsUnique(pinMap, InitialisePins(pinMap, InitialisePins(pinMap, s)), InitialisePins(pinMap, s));
  }

  /** Claims a pin as an analogue input. A pin without the analogue-input
      bit is refused and left alone. On a capable pin the claim always
      happens: a pin already claimed as an output is reported as in use
      but is still switched to analogue input. */
  function EnableAnalogue(pinMap: seq<PinDefinition>, pins: seq<PinConfig>, pin: byte): (r: PinStep)
    requires |pins| == |pinMap| && pin as int < |pins|
    ensures |r.pins| == |pins|
    ensures !Can(pinMap[pin], AnalogueInput) ==>
      r.pins == pins && r.events == [Refused(pinMap[pin].physicalPin, NotCapable(AnalogueIn))]
    ensures Can(pinMap[pin], AnalogueInput) ==>
      && r.pins[pin].enable && r.pins[pin].mode == ModeAnalogue && r.pins[pin].isInput
      && r.pins[pin].pullup == pins[pin].pullup
      && (forall q :: 0 <= q < |pins| && q != pin as int ==> r.pins[q] == pins[q])
      && (Refused(pinMap[pin].physicalPin, InUse(AnalogueIn)) in r.events <==>
           pins[pin].enable && pins[pin].mode != ModeAnalogue && !pins[pin].isInput)
  {
    var physical := pinMap[pin].physicalPin;
    if Can(pinMap[pin], AnalogueInput) then
      var warn := if pins[pin].enable && pins[pin].mode != ModeAnalogue && !pins[pin].isInput
        then [Refused(physical, InUse(AnalogueIn))] else [];
      var events := warn + [PinModeInput(physical)];
      PinStep(pins[pin := PinConfig(true, ModeAnalogue, true, pins[pin].pullup)], events)
    else
      PinStep(pins, [Refused(physical, NotCapable(AnalogueIn))])
  }

  /** A PWM write to a pin that is free or already a PWM output. */
  predicate PwmClaimAllowed(pc: PinConfig) {
    !pc.enable || (!pc.isInput && pc.mode == ModePwm)
  }

  /** Writes a PWM value. A pin without the PWM bit, or one already claimed
      as an input or for another mode, is refused and left alone; otherwise
      the pin becomes an enabled PWM output and the value is written. */
  function WriteAnalogue(pinMap: seq<PinDefinition>, pins: seq<PinConfig>, pin: byte, value: uint16): (r: PinStep)
    requires |pins| == |pinMap| && pin as int < |pins|
    ensures |r.pins| == |pins|
    ensures !Can(pinMap[pin], PwmOutput) || !PwmClaimAllowed(pins[pin]) ==>
      r.pins == pins && NoPinDrive(r.events) && |r.events| == 1
    ensures Can(pinMap[pin], PwmOutput) && PwmClaimAllowed(pins[pin]) ==>
      && r.pins[pin].enable && r.pins[pin].mode == ModePwm && !r.pins[pin].isInput
      && r.pins[pin].pullup == pins[pin].pullup
      && (forall q :: 0 <= q < |pins| && q != pin as int ==> r.pins[q] == pins[q])
      && r.events == [AnalogWrite(pinMap[pin].physicalPin, value)]
  {
    var physical := pinMap[pin].physicalPin;
    if !Can(pinMap[pin], PwmOutput) then
      PinStep(pins, [Refused(physical, NotCapable(PwmOut))])
    else if pins[pin].enable && (pins[pin].isInput || pins[pin].mode != ModePwm) then
      PinStep(pins, [Refused(physical, InUse(PwmOut))])
    else
      PinStep(pins[pin := PinConfig(true, ModePwm, false, pins[pin].pullup)], [AnalogWrite(physical, value)])
  }

  /** Re-issuing the same PWM write changes nothing further. */
  lemma WriteAnalogueIdempotent(pinMap: seq<PinDefinition>, pins: seq<PinConfig>, pin: byte, value: uint16)
    requires |pins| == |pinMap| && pin as int < |pins|
    ensures WriteAnalogue(pinMap, WriteAnalogue(pinMap, pins, pin, value).pins, pin, value).pins
         == WriteAnalogue(pinMap, pins, pin, value).pins
  {
  }

  /** Enabling an analogue input twice is enabling it once. */
  lemma EnableAnalogueIdempotent(pinMap: seq<PinDefinition>, pins: seq<PinConfig>, pin: byte)
    requires |pins| == |pinMap| && pin as int < |pins|
    ensures EnableAnalogue(pinMap, EnableAnalogue(pinMap, pins, pin).pins, pin).pins
         == EnableAnalogue(pinMap, pins, pin).pins
  {
  }
}

=== FILE: pin_map.dfy ===
/** The board's logical pin table: each logical pin names a physical pin and
    a 4-bit capability mask (bit 0 digital input, bit 1 digital output,
    bit 2 analogue input, bit 3 PWM output). The tables themselves are
    per-board data and enter the model as a parameter. */
module PinMap {
  import opened Bytes

  /** Capability bit indices. */
  const DigitalInput: nat := 0
  const DigitalOutput: nat := 1
  const AnalogueInput: nat := 2
  const PwmOutput: nat := 3

  /** Capability masks named by the board tables. */
  const DI: bv8 := 0x01
  const DO: bv8 := 0x02
  const DIO: bv8 := 0x03
  const AI: bv8 := 0x04
  const AIDI: bv8 := 0x05
  const AIDO: bv8 := 0x06
  const AIDIO: bv8 := 0x07
  const PO: bv8 := 0x08
  const DIPO: bv8 := 0x09
  const DOPO: bv8 := 0x0A
  const DIOPO: bv8 := 0x0B
  const AOPO: bv8 := 0x0C
  const AODIPO: bv8 := 0x0D
  const AODOPO: bv8 := 0x0E
  const AODIOPO: bv8 := 0x0F

  datatype PinDefinition = PinDefinition(physicalPin: byte, capability: bv8)

  predicate Can(pd: PinDefinition, bit: nat)
    requires bit < 8
  {
    BitRead(pd.capability, bit)
  }

  /** The three pin classes the firmware counts at start-up. */
  datatype PinClass = AnalogueClass | DigitalClass | PwmClass

  predicate InClass(pd: PinDefinition, c: PinClass) {
    match c
    case AnalogueClass => Can(pd, AnalogueInput)
    case DigitalClass => Can(pd, DigitalInput) || Can(pd, DigitalOutput)
    case PwmClass => Can(pd, PwmOutput)
  }

  /** Number of pins of class `c` in `m`. */
  function Count(m: seq<PinDefinition>, c: PinClass): (n: nat)
    ensures n <= |m|
  {
    if |m| == 0 then 0
    else Count(m[..|m| - 1], c) + (if InClass(m[|m| - 1], c) then 1 else 0)
  }

  /** Counting a longer prefix never gives less. */
  lemma {:induction false} CountMonotone(m: seq<PinDefinition>, k: nat, c: PinClass)
    requires k <= |m|
    ensures Count(m[..k], c) <= Count(m, c)
    decreases |m|
  {
    if k < |m| {
      assert m[..|m| - 1][..k] == m[..k];
      CountMonotone(m[..|m| - 1], k, c);
    } else {
      assert m[..k] == m;
    }
  }

  /** A table whose every entry is of class `c` counts all its entries. */
  lemma {:induction false} CountAll(m: seq<PinDefinition>, c: PinClass)
    requires forall k :: 0 <= k < |m| ==> InClass(m[k], c)
    ensures Count(m, c) == |m|
    decreases |m|
  {
    if |m| > 0 {
      CountAll(m[..|m| - 1], c);
    }
  }

  /** The digital-capable pins come first in the table, as in every board
      table of the firmware (analogue-only pins are listed last). */
  predicate DigitalFirst(m: seq<PinDefinition>) {
    forall i, j :: 0 <= i < j < |m| && InClass(m[j], DigitalClass) ==> InClass(m[i], DigitalClass)
  }
}

=== FILE: serial.dfy ===
/** The USB console: the `<...>` frame accumulator and the commands that
    change state (diagnostics, stored address, test-mode toggles). */
module SerialConsole {
  import opened Bytes
  import opened Globals
  import opened PinMap
  import opened PinIo
  import opened TestModes
  import opened DeviceStore
  import opened Options

  const NumSerialChars: nat := 20
  const StartMarker: char := '<'
  const EndMarker: char := '>'
  const Nul: char := 0 as char

  /** The accumulator's statics: inside a frame or not, the next buffer
      slot, the 20-character buffer, and whether a frame is ready. */
  datatype Framer = Framer(inProgress: bool, index: nat, chars: seq<char>, newData: bool)

  predicate ValidFramer(f: Framer) {
    |f.chars| == NumSerialChars && f.index < NumSerialChars
  }

  /** One character read by the framing loop. Outside a frame only `<`
      matters, and it opens a frame. Inside a frame `>` terminates the
      buffer at the current slot and marks a frame ready; any other
      character, `<` included, is stored and the slot moves on, but never
      past the last one. */
  function Feed(f: Framer, c: char): (r: Framer)
    requires ValidFramer(f)
    ensures ValidFramer(r)
    ensures !f.inProgress && c != StartMarker ==> r == f
    ensures !f.inProgress && c == StartMarker ==> r == f.(inProgress := true)
    ensures f.inProgress && c != EndMarker ==>
      && r.inProgress && !r.newData == !f.newData
      && r.chars == f.chars[f.index := c]
      && r.index == (if f.index + 1 < NumSerialChars then f.index + 1 else NumSerialChars - 1)
    ensures f.inProgress && c == EndMarker ==>
      r == Framer(false, 0, f.chars[f.index := Nul], true)
  {
    if f.inProgress then
      if c != EndMarker then
        var next := f.index + 1;
        f.(chars := f.chars[f.index := c], index := if next >= NumSerialChars then NumSerialChars - 1 else next)
      else
        Framer(false, 0, f.chars[f.index := Nul], true)
    else if c == StartMarker then f.(inProgress := true)
    else f
  }

  /** The framing loop: reads characters while there are any and no frame
      is ready. Returns the accumulator and the unread characters. */
  function Consume(f: Framer, input: seq<char>): (r: (Framer, seq<char>))
    requires ValidFramer(f)
    ensures ValidFramer(r.0)
    ensures |r.1| <= |input| && r.1 == input[|input| - |r.1|..]
    ensures |r.1| > 0 ==> r.0.newData
    ensures f.newData ==> r == (f, input)
    decreases |input|
  {
    if |input| == 0 || f.newData then (f, input)
    else Consume(Feed(f, input[0]), input[1..])
  }

  function Min(a: nat, b: nat): nat {
    if a < b then a else b
  }

  /** Inside a frame, characters other than `>` fill the buffer from the
      slot the frame started at; once the last slot is reached every further
      character lands there. */
  lemma {:induction false} BodyFills(f: Framer, s: seq<char>)
    requires ValidFramer(f) && f.inProgress && f.index == 0 && !f.newData
    requires forall k :: 0 <= k < |s| ==> s[k] != EndMarker
    ensures var r := Consume(f, s).0;
      && r.inProgress && !r.newData && Consume(f, s).1 == []
      && r.index == Min(|s|, NumSerialChars - 1)
      && forall k :: 0 <= k < Min(|s|, NumSerialChars - 1) ==> r.chars[k] == s[k]
    decreases |s|
  {
    if |s| > 0 {
      var prefix := s[..|s| - 1];
      var c := s[|s| - 1];
      BodyFills(f, prefix);
      ConsumeAppend(f, prefix, [c]);
      assert prefix + [c] == s;
      var g := Consume(f, prefix).0;
      assert Consume(g, [c]) == (Feed(g, c), []) by {
        assert [c][1..] == [];
      }
      StoreOne(g, prefix, c);
    }
  }

  /** One more body character after `prefix` extends what the buffer holds
      by that character, unless the buffer is already at its last slot. */
  lemma StoreOne(g: Framer, prefix: seq<char>, c: char)
    requires ValidFramer(g) && g.inProgress && !g.newData && c != EndMarker
    requires g.index == Min(|prefix|, NumSerialChars - 1)
    requires forall k :: 0 <= k < g.index ==> g.chars[k] == prefix[k]
    ensures var r := Feed(g, c);
      && r.inProgress && !r.newData
      && r.index == Min(|prefix| + 1, NumSerialChars - 1)
      && forall k :: 0 <= k < r.index ==> r.chars[k] == (prefix + [c])[k]
  {
  }

  /** Reading `a` then `b` while no frame is ready is reading `a + b`. */
  lemma {:induction false} ConsumeAppend(f: Framer, a: seq<char>, b: seq<char>)
    requires ValidFramer(f)
    requires !Consume(f, a).0.newData
    ensures Consume(f, a + b) == Consume(Consume(f, a).0, b)
    decreases |a|
  {
    if |a| == 0 {
      assert a + b == b;
    } else {
      assert (a + b)[1..] == a[1..] + b;
      ConsumeAppend(Feed(f, a[0]), a[1..], b);
    }
  }

  /** Noise then `<` leaves the accumulator inside a fresh frame. */
  lemma OpenFrame(f: Framer, noise: seq<char>)
    requires ValidFramer(f) && !f.inProgress && !f.newData
    requires forall k :: 0 <= k < |noise| ==> noise[k] != StartMarker
    ensures Consume(f, noise + [StartMarker]) == (f.(inProgress := true), [])
  {
    NoiseIgnored(f, noise);
    ConsumeAppend(f, noise, [StartMarker]);
  }

  /** Noise, `<`, a body and `>` leave the body's first (at most 19)
      characters at the start of the buffer, a NUL after them, and a frame
      ready. */
  lemma FrameReady(f: Framer, noise: seq<char>, body: seq<char>)
    requires ValidFramer(f) && !f.inProgress && !f.newData && f.index == 0
    requires forall k :: 0 <= k < |noise| ==> noise[k] != StartMarker
    requires forall k :: 0 <= k < |body| ==> body[k] != EndMarker
    ensures var r := Consume(f, noise + [StartMarker] + body + [EndMarker]);
      && r.1 == [] && r.0.newData && !r.0.inProgress && r.0.index == 0
      && var n := Min(|body|, NumSerialChars - 1);
         r.0.chars[..n] == body[..n] && r.0.chars[n] == Nul
  {
    var b := noise + [StartMarker];
    var c := b + body;
    var open := f.(inProgress := true);
    OpenFrame(f, noise);
    BodyFills(open, body);
    var filled := Consume(open, body).0;
    ConsumeAppend(f, b, body);
    ConsumeAppend(f, c, [EndMarker]);
    assert Consume(f, c + [EndMarker]) == (Feed(filled, EndMarker), []);
    CloseKeepsBody(filled, body);
  }

  /** `>` keeps what the frame stored before the slot it writes NUL to. */
  lemma CloseKeepsBody(g: Framer, body: seq<char>)
    requires ValidFramer(g) && g.inProgress && g.index <= |body|
    requires forall k :: 0 <= k < g.index ==> g.chars[k] == body[k]
    ensures var done := Feed(g, EndMarker);
      done.chars[..g.index] == body[..g.index] && done.chars[g.index] == Nul
  {
    var done := Feed(g, EndMarker);
    forall k | 0 <= k < g.index ensures done.chars[k] == body[k] {
      assert done.chars[k] == g.chars[k];
    }
  }

  /** A whole frame on the wire: characters before `<` are ignored, the
      body up to `>` ends up at the start of the buffer (at most 19
      characters of it) followed by a NUL, a frame is marked ready, and
      reading stops right after the `>`. */
  lemma ReadFrame(f: Framer, noise: seq<char>, body: seq<char>, rest: seq<char>)
    requires ValidFramer(f) && !f.inProgress && !f.newData && f.index == 0
    requires forall k :: 0 <= k < |noise| ==> noise[k] != StartMarker
    requires forall k :: 0 <= k < |body| ==> body[k] != EndMarker
    ensures var r := Consume(f, noise + [StartMarker] + body + [EndMarker] + rest);
      && r.1 == rest && r.0.newData && !r.0.inProgress && r.0.index == 0
      && var n := Min(|body|, NumSerialChars - 1);
         r.0.chars[..n] == body[..n] && r.0.chars[n] == Nul
  {
    FrameReady(f, noise, body);
    ConsumeStopsWhenReady(f, noise + [StartMarker] + body + [EndMarker], rest);
  }

  /** Outside a frame, characters other than `<` change nothing. */
  lemma {:induction false} NoiseIgnored(f: Framer, noise: seq<char>)
    requires ValidFramer(f) && !f.inProgress && !f.newData
    requires forall k :: 0 <= k < |noise| ==> noise[k] != StartMarker
    ensures Consume(f, noise) == (f, [])
    decreases |noise|
  {
    if |noise| > 0 {
      NoiseIgnored(f, noise[1..]);
    }
  }

  /** Once a frame is ready, the rest of the input stays unread. */
  lemma {:induction false} ConsumeStopsWhenReady(f: Framer, a: seq<char>, rest: seq<char>)
    requires ValidFramer(f) && Consume(f, a).0.newData && Consume(f, a).1 == []
    ensures Consume(f, a + rest) == (Consume(f, a).0, rest)
    decreases |a|
  {
    if f.newData {
      assert a == [];
      assert a + rest == rest;
    } else if |a| > 0 {
      assert (a + rest)[1..] == a[1..] + rest;
      ConsumeStopsWhenReady(Feed(f, a[0]), a[1..], rest);
    }
  }

  /** `D <parameter>`: with diagnostics on, a non-zero parameter sets the
      display delay to that many seconds and a zero one switches
      diagnostics off; with diagnostics off, diagnostics come on and a
      non-zero parameter also sets the delay. The delay is a 32-bit
      unsigned long, so the product wraps. */
  function SerialCaseD(d: Device, parameter: uint32): (r: Device)
    ensures r == d.(diag := r.diag, displayDelay := r.displayDelay)
    ensures r.diag <==> !d.diag || parameter != 0
    ensures r.displayDelay == if parameter != 0 then (parameter * 1000) % 0x1_0000_0000 else d.displayDelay
  {
    if d.diag && parameter != 0 then
      d.(displayDelay := (parameter * 1000) % 0x1_0000_0000, diag := true)
    else if d.diag && parameter == 0 then
      d.(diag := false)
    else
      d.(displayDelay := if parameter != 0 then (parameter * 1000) % 0x1_0000_0000 else d.displayDelay, diag := true)
  }

  /** `D 0` toggles diagnostics; two of them restore the device. */
  lemma DiagToggle(d: Device)
    ensures SerialCaseD(d, 0).diag == !d.diag
    ensures SerialCaseD(SerialCaseD(d, 0), 0) == d
  {
  }

  /** `D <n>` with `n` non-zero is idempotent and always leaves diagnostics
      on. */
  lemma DiagDelayIdempotent(d: Device, parameter: uint32)
    requires parameter != 0
    ensures SerialCaseD(d, parameter).diag
    ensures SerialCaseD(SerialCaseD(d, parameter), parameter) == SerialCaseD(d, parameter)
  {
  }

  /** A delay parameter above 4294967 seconds wraps: `D 4294968` sets a
      704 ms delay. */
  lemma DelayWraps(d: Device)
    ensures SerialCaseD(d, 4294968).displayDelay == 704
  {
  }

  /** The 7-bit addresses an I2C target may use: 0x08 to 0x77, outside the
      two reserved blocks of section 3.1.12 of the NXP I2C-bus
      specification (UM10204). */
  predicate UsableI2CAddress(a: int) {
    0x08 <= a <= 0x77
  }

  /** `W <address>`: an address in the usable range is stored; anything
      else is rejected and the storage is untouched. */
  function SerialCaseW(s: Storage, parameter: uint32): (r: Storage)
    requires ValidStorage(s)
    ensures ValidStorage(r)
    ensures !UsableI2CAddress(parameter) ==> r == s
    ensures UsableI2CAddress(parameter) && s.Eeprom? ==> StoredAddress(r) == parameter
  {
    if parameter > 0x07 && parameter < 0x78 then WriteI2CAddress(s, parameter) else s
  }

  datatype AddressReport = NotStored | Stored(address: byte)

  /** `R`: what the console reports for the stored address. */
  function SerialCaseR(s: Storage): (r: AddressReport)
    requires ValidStorage(s)
    ensures r.Stored? ==> r.address != 0 && r.address == StoredAddress(s)
    ensures r == NotStored <==> StoredAddress(s) == 0
  {
    if StoredAddress(s) == 0 then NotStored else Stored(StoredAddress(s))
  }

  /** Storing a usable address through `W` and reading it through `R`
      reports that address. */
  lemma WriteThenReport(s: Storage, parameter: uint32)
    requires ValidStorage(s) && s.Eeprom? && UsableI2CAddress(parameter)
    ensures SerialCaseR(SerialCaseW(s, parameter)) == Stored(parameter)
  {
  }

  /** `T A`, `T I`, `T O`, `T P`: a mode that is on is switched off,
      otherwise it is switched on. */
  function ToggleTest(d: Device, k: TestKind): (r: Device)
    requires Valid(d)
    ensures Valid(r)
    ensures Flag(r.testing, k) == !Flag(d.testing, k)
    ensures Flag(d.testing, k) ==> r == Test(d, k, false)
    ensures !Flag(d.testing, k) ==> r == Test(d, k, true)
  {
    if Flag(d.testing, k) then Test(d, k, false)
    else
      EnableSetsFlag(d, k);
      Test(d, k, true)
  }

  /** Toggling a mode twice leaves it off, with diagnostics off and every
      pin reset, whatever the mode was before. */
  lemma ToggleTwice(d: Device, k: TestKind)
    requires Valid(d) && !Flag(d.testing, k)
    ensures var r := ToggleTest(ToggleTest(d, k), k);
      !Flag(r.testing, k) && !r.diag && StoreIsReset(d.pinMap, r.store)
      && forall j :: j != k ==> !Flag(r.testing, j)
  {
    EnableSetsFlag(d, k);
  }

  /** The order in which `T` with no mode letter looks at the flags. */
  function Rank(k: TestKind): nat {
    match k
    case AnalogueTest => 0
    case InputTest => 1
    case OutputTest => 2
    case PullupTest => 3
  }

  /** `T` alone: the first mode that is on, in the order analogue, input,
      output, pullup; `None` when no test is running. */
  function TestStatus(t: TestFlags): (r: Option<TestKind>)
    ensures r.None? <==> !t.Any()
    ensures r.Some? ==> Flag(t, r.value) && forall j :: Rank(j) < Rank(r.value) ==> !Flag(t, j)
  {
    if t.analogue then Some(AnalogueTest)
    else if t.input then Some(InputTest)
    else if t.output then Some(OutputTest)
    else if t.pullup then Some(PullupTest)
    else None
  }

  /** Switching a mode on makes the status report name that mode, and
      switching it off again makes it report that no test is running. */
  lemma StatusAfterToggle(d: Device, k: TestKind)
    requires Valid(d) && !Flag(d.testing, k)
    ensures TestStatus(ToggleTest(d, k).testing) == Some(k)
    ensures TestStatus(ToggleTest(ToggleTest(d, k), k).testing).None?
  {
    EnableSetsFlag(d, k);
    ToggleTwice(d, k);
  }

  /** A console command once its line has been split up. */
  datatype Command =
    | DiagCommand(parameter: uint32)
    | EraseCommand
    | ReadCommand
    | ToggleCommand(kind: TestKind)
    | ServoCommand
    | StatusCommand
    | VpinMapCommand
    | WriteCommand(parameter: uint32)
    | RebootCommand
    | UnknownCommand

  /** The state a console command can change. */
  datatype Console = Console(dev: Device, storage: Storage)

  predicate ValidConsole(c: Console) {
    Valid(c.dev) && ValidStorage(c.storage)
  }

  /** The command switch. Only `E` and `W` reach the storage; only `D`,
      the toggles and the servo test change the device; reporting,
      the Vpin map, a reboot request and unknown letters change nothing
      the model keeps. */
  function Dispatch(c: Console, cmd: Command): (r: Console)
    requires ValidConsole(c)
    ensures ValidConsole(r)
    ensures !(cmd.EraseCommand? || cmd.WriteCommand?) ==> r.storage == c.storage
    ensures cmd.EraseCommand? || cmd.WriteCommand? ==> r.dev == c.dev
    ensures cmd.ReadCommand? || cmd.StatusCommand? || cmd.VpinMapCommand? || cmd.UnknownCommand? ==> r == c
    ensures cmd.RebootCommand? ==>
      && SameBoard(c.dev, r.dev) && StoreIsReset(c.dev.pinMap, r.dev.store)
      && r.dev.firstVpin == 0 && !r.dev.setupComplete && r.dev.outboundFlag == 0
      && r.dev.diag == c.dev.config.diag && r.dev.displayDelay == c.dev.config.displayDelay
      && r.dev.testing == NoTesting
    ensures cmd.EraseCommand? ==> StoredAddress(r.storage) == 0
    ensures cmd.ToggleCommand? ==> Flag(r.dev.testing, cmd.kind) == !Flag(c.dev.testing, cmd.kind)
  {
    match cmd
    case DiagCommand(parameter) => c.(dev := SerialCaseD(c.dev, parameter))
    case EraseCommand =>
      EraseThenRead(c.storage);
      c.(storage := EraseI2CAddress(c.storage))
    case ToggleCommand(k) => c.(dev := ToggleTest(c.dev, k))
    case ServoCommand => c.(dev := TestServo(c.dev).0)
    case WriteCommand(parameter) => c.(storage := SerialCaseW(c.storage, parameter))
    case RebootCommand => c.(dev := Restart(c.dev))
    case _ => c
  }

  /** `Z` on a console whose device was started on some board brings the
      device back to exactly its start-up state and keeps the stored
      address. */
  lemma RebootRestoresBoot(pinMap: seq<PinDefinition>, numPins: byte, analoguePinMap: seq<byte>, version: seq<byte>,
                           cfg: BuildConfig, c: Console)
    requires |pinMap| < 0x100 && numPins as int <= |pinMap|
    requires |analoguePinMap| >= Count(pinMap[..numPins], AnalogueClass) && |version| == 3
    requires ValidStorage(c.storage) && SameBoard(Boot(pinMap, numPins, analoguePinMap, version, cfg), c.dev)
    ensures ValidConsole(c)
    ensures Dispatch(c, RebootCommand) == c.(dev := Boot(pinMap, numPins, analoguePinMap, version, cfg))
  {
    RestartGivesBoot(pinMap, numPins, analoguePinMap, version, cfg, c.dev);
  }
}

=== FILE: servo.dfy ===
/** The per-pin animation step: Idle (numSteps == 0) -> Animating
    (stepNumber < numSteps) -> Settling (numSteps <= stepNumber <
    numSteps + catch-up) -> Idle, with positions from Arduino's `map`
    linear interpolation or the bounce table. */
module Servo {
  import opened Bytes
  import opened Options

  /** Extra ticks held after the last position so the actuator can settle. */
  const CatchupSteps: nat := 5

  /** Bounce positions in percent of the travel; entry 0 is never read. */
  const BounceProfile: seq<byte> :=
    [0, 2, 3, 7, 13, 33, 50, 83, 100, 83, 75, 70, 65, 60, 60,
     65, 74, 84, 100, 83, 75, 70, 70, 72, 75, 80, 87, 92, 97, 100]

  /** The interpolation shape, with the "keep power on" flag as its own
      field rather than a high bit of the profile byte. */
  datatype ProfileKind = Instant | Fast | Medium | Slow | Bounce
  datatype Profile = Profile(kind: ProfileKind, noPowerOff: bool)

  datatype ServoData = ServoData(
    currentPosition: int, fromPosition: nat, toPosition: nat,
    profile: Profile, stepNumber: nat, numSteps: nat)

  /** C's integer division, which truncates toward zero. */
  function TruncDiv(a: int, b: int): int
    requires b != 0
  {
    if a >= 0 && b > 0 then a / b
    else if a < 0 && b > 0 then -((-a) / b)
    else if a >= 0 then -(a / (-b))
    else (-a) / (-b)
  }

  /** Arduino's `map`: rescales `x` from [inMin, inMax] to [outMin, outMax]. */
  function ArduinoMap(x: int, inMin: int, inMax: int, outMin: int, outMax: int): int
    requires inMax != inMin
  {
    TruncDiv((x - inMin) * (outMax - outMin), inMax - inMin) + outMin
  }

  predicate Between(lo: int, hi: int, v: int) {
    (lo <= v <= hi) || (hi <= v <= lo)
  }

  lemma DivAtMost(a: nat, b: nat, n: nat)
    requires n > 0 && a <= b * n
    ensures a / n <= b
  {
  }

  lemma MulAtMost(x: nat, n: nat, d: nat)
    requires x <= n
    ensures x * d <= n * d
  {
  }

  lemma MulCancelLess(a: int, b: int, n: nat)
    requires n > 0 && a * n < b * n
    ensures a < b
  {
  }

  lemma ExactDiv(d: nat, n: nat)
    requires n > 0
    ensures (d * n) / n == d
  {
    DivAtMost(d * n, d, n);
    var q := (d * n) / n;
    assert d * n == q * n + (d * n) % n;
    assert d * n < (q + 1) * n;
    MulCancelLess(d, q + 1, n);
  }

  /** The scaled travel `x * d / n` of a step `x` of `n` over a distance
      `d`: no more than the whole distance, and all of it at the end. */
  lemma ScaledTravel(x: nat, n: nat, d: nat)
    requires 0 < n && x <= n
    ensures 0 <= (x * d) / n <= d
    ensures x == n ==> (x * d) / n == d
    ensures x == 0 ==> (x * d) / n == 0
  {
    MulAtMost(x, n, d);
    assert x * d <= d * n;
    DivAtMost(x * d, d, n);
    if x == n {
      assert x * d == d * n;
      ExactDiv(d, n);
    }
  }

  lemma NegateProduct(x: int, d: int)
    ensures x * (-d) == -(x * d)
  {
  }

  /** Interpolating from 0 to n stays between the two end positions, starts
      at the first and ends exactly on the second. */
  lemma MapBetween(x: nat, n: nat, from: nat, to: nat)
    requires 0 < n && x <= n
    ensures Between(from, to, ArduinoMap(x, 0, n, from, to))
    ensures x == n ==> ArduinoMap(x, 0, n, from, to) == to
    ensures x == 0 ==> ArduinoMap(x, 0, n, from, to) == from
  {
    if to >= from {
      var d: nat := to - from;
      ScaledTravel(x, n, d);
      assert (x - 0) * (to - from) == x * d;
      assert ArduinoMap(x, 0, n, from, to) == (x * d) / n + from;
    } else {
      var d: nat := from - to;
      ScaledTravel(x, n, d);
      NegateProduct(x, d);
      assert (x - 0) * (to - from) == -(x * d);
      assert ArduinoMap(x, 0, n, from, to) == from - (x * d) / n;
    }
  }

  /** An animation the bounce table can drive: step numbers up to
      numSteps index the table. */
  predicate TableFits(s: ServoData) {
    s.profile.kind == Bounce ==> s.numSteps < |BounceProfile|
  }

  /** A new state and the position written to the output, if any. */
  datatype ServoStep = ServoStep(data: ServoData, written: Option<int>)

  /** Where the bounce branch takes its percentage from: the table entry,
      as evidently intended, or the low byte of the entry's address, which
      is what servo_functions.cpp:52 stores. */
  datatype BounceLookup = TableEntry | AddressLowByte(tableAddress: nat)

  /** One animation tick of a pin that has animation data. The bounce
      profile's position comes from `lookup`. */
  function UpdatePosition(s: ServoData, lookup: BounceLookup): (r: ServoStep)
    requires TableFits(s)
    ensures TableFits(r.data)
    ensures r.data.fromPosition == s.fromPosition && r.data.toPosition == s.toPosition
    ensures r.data.profile == s.profile
    ensures s.numSteps == 0 ==> r == ServoStep(s, None)
    ensures s.numSteps > 0 && s.stepNumber == 0 && s.fromPosition == s.toPosition ==>
      r.data.stepNumber == s.numSteps && r.data.currentPosition == s.toPosition
    ensures s.numSteps > 0 && s.stepNumber < s.numSteps ==>
      && r.data.numSteps == s.numSteps
      && r.written == Some(r.data.currentPosition)
      && (s.profile.kind != Bounce || lookup.TableEntry? ==>
            Between(s.fromPosition, s.toPosition, r.data.currentPosition))
      && (s.profile.kind != Bounce ==>
            r.data.currentPosition == ArduinoMap(r.data.stepNumber, 0, s.numSteps, s.fromPosition, s.toPosition))
      && (s.profile.kind == Bounce && lookup.TableEntry? ==>
            && 1 <= r.data.stepNumber < |BounceProfile|
            && r.data.currentPosition ==
               ArduinoMap(BounceProfile[r.data.stepNumber], 0, 100, s.fromPosition, s.toPosition))
      && (s.profile.kind == Bounce && lookup.AddressLowByte? ==>
            r.data.currentPosition ==
            ArduinoMap(BounceLookupAsWritten(lookup.tableAddress, r.data.stepNumber), 0, 100, s.fromPosition, s.toPosition))
      && (s.fromPosition != s.toPosition || s.stepNumber > 0 ==> r.data.stepNumber == s.stepNumber + 1)
      && (r.data.stepNumber == s.numSteps && s.profile.kind != Bounce ==> r.data.currentPosition == s.toPosition)
    ensures s.numSteps > 0 && s.numSteps <= s.stepNumber < s.numSteps + CatchupSteps ==>
      r == ServoStep(s.(stepNumber := s.stepNumber + 1), None)
    ensures s.numSteps > 0 && s.stepNumber == s.numSteps + CatchupSteps ==>
      r.written == None && r.data.stepNumber == s.stepNumber && r.data.currentPosition == s.currentPosition
      && (r.data.numSteps == 0 <==> s.currentPosition != 0)
      && (s.currentPosition == 0 ==> r.data == s)
    ensures r.data.numSteps == s.numSteps || r.data.numSteps == 0
    ensures s.stepNumber <= s.numSteps + CatchupSteps && r.data.numSteps > 0 ==>
      r.data.stepNumber <= r.data.numSteps + CatchupSteps
  {
    if s.numSteps == 0 then ServoStep(s, None)
    else
      var s1 := if s.stepNumber == 0 && s.fromPosition == s.toPosition then s.(stepNumber := s.numSteps - 1) else s;
      if s1.stepNumber < s1.numSteps then
        var n := s1.stepNumber + 1;
        var pos := if s.profile.kind != Bounce then LinearPosition(s1, n)
          else match lookup
            case TableEntry => BouncePosition(s1, n)
            case AddressLowByte(address) => ArduinoMap(BounceLookupAsWritten(address, n), 0, 100, s.fromPosition, s.toPosition);
        ServoStep(s1.(stepNumber := n, currentPosition := pos), Some(pos))
      else if s1.stepNumber < s1.numSteps + CatchupSteps then
        ServoStep(s1.(stepNumber := s1.stepNumber + 1), None)
      else if s1.stepNumber == s1.numSteps + CatchupSteps && s1.currentPosition != 0 then
        ServoStep(s1.(numSteps := 0), None)
      else
        ServoStep(s1, None)
  }

  /** The linear profiles' position at step `n`: the interpolation of `n`
      over the whole animation, which reaches `toPosition` at the last step. */
  function LinearPosition(s: ServoData, n: nat): (pos: nat)
    requires 0 < s.numSteps && n <= s.numSteps
    ensures Between(s.fromPosition, s.toPosition, pos)
    ensures n == s.numSteps ==> pos == s.toPosition
  {
    MapBetween(n, s.numSteps, s.fromPosition, s.toPosition);
    ArduinoMap(n, 0, s.numSteps, s.fromPosition, s.toPosition)
  }

  /** The bounce position at step `n`: the table's percentage of the way
      from `fromPosition` to `toPosition`. The lookup happens after the step
      counter is incremented, so entry 0 is never read. */
  function BouncePosition(s: ServoData, n: nat): (pos: nat)
    requires 1 <= n < |BounceProfile|
    ensures Between(s.fromPosition, s.toPosition, pos)
    ensures BounceProfile[n] == 100 ==> pos == s.toPosition
  {
    MapBetween(BounceProfile[n], 100, s.fromPosition, s.toPosition);
    ArduinoMap(BounceProfile[n], 0, 100, s.fromPosition, s.toPosition)
  }

  /** A pin's tick: a pin without animation data is left alone. */
  function UpdatePin(s: Option<ServoData>, lookup: BounceLookup): (r: Option<ServoStep>)
    requires s.Some? ==> TableFits(s.value)
    ensures s.None? <==> r.None?
    ensures s.Some? && s.value.numSteps == 0 ==> r == Some(ServoStep(s.value, None))
  {
    match s
    case None => None
    case Some(data) => Some(UpdatePosition(data, lookup))
  }

  /** `k` consecutive ticks. */
  function Run(s: ServoData, lookup: BounceLookup, k: nat): ServoData
    requires TableFits(s)
    ensures TableFits(Run(s, lookup, k))
    decreases k
  {
    if k == 0 then s else Run(UpdatePosition(s, lookup).data, lookup, k - 1)
  }

  /** A linear animation in progress at step `j` (past the start) reaches
      its last step after `numSteps - j` more ticks, at `toPosition`. */
  lemma {:induction false} AnimatingReachesEnd(s: ServoData, lookup: BounceLookup)
    requires TableFits(s) && s.profile.kind != Bounce
    requires 0 < s.stepNumber <= s.numSteps
    ensures var e := Run(s, lookup, s.numSteps - s.stepNumber);
      && e.numSteps == s.numSteps && e.stepNumber == s.numSteps
      && e.fromPosition == s.fromPosition && e.toPosition == s.toPosition && e.profile == s.profile
      && (s.stepNumber < s.numSteps ==> e.currentPosition == s.toPosition)
      && (s.stepNumber == s.numSteps ==> e == s)
    decreases s.numSteps - s.stepNumber
  {
    if s.stepNumber < s.numSteps {
      var next := UpdatePosition(s, lookup).data;
      AnimatingReachesEnd(next, lookup);
      if next.stepNumber == next.numSteps {
        assert next.currentPosition == s.toPosition;
      }
    }
  }

  /** After the last step, `catchupSteps` ticks pass with only the step
      counter moving; the next tick marks the pin idle unless its position
      is 0. */
  lemma {:induction false} SettlingThenIdle(s: ServoData, lookup: BounceLookup, i: nat)
    requires TableFits(s) && s.numSteps > 0 && i <= CatchupSteps
    requires s.stepNumber == s.numSteps + CatchupSteps - i
    ensures Run(s, lookup, i) == s.(stepNumber := s.numSteps + CatchupSteps)
    decreases i
  {
    if i > 0 {
      SettlingThenIdle(UpdatePosition(s, lookup).data, lookup, i - 1);
    }
  }

  /** Run(s, lookup, a + b) is Run(Run(s, lookup, a), lookup, b). */
  lemma {:induction false} RunAdd(s: ServoData, lookup: BounceLookup, a: nat, b: nat)
    requires TableFits(s)
    ensures Run(s, lookup, a + b) == Run(Run(s, lookup, a), lookup, b)
    decreases a
  {
    if a > 0 {
      RunAdd(UpdatePosition(s, lookup).data, lookup, a - 1, b);
    }
  }

  /** A linear animation of N > 0 steps started at step 0 shows
      `toPosition` after its last animated tick and is idle on tick
      M + catchupSteps + 1, where M is N, or 1 when there is nothing to
      travel; it is not idle before. */
  lemma LinearAnimationCompletes(s: ServoData, lookup: BounceLookup)
    requires s.profile.kind != Bounce && s.numSteps > 0 && s.stepNumber == 0
    requires s.toPosition != 0
    ensures var m := if s.fromPosition == s.toPosition then 1 else s.numSteps;
      && Run(s, lookup, m).currentPosition == s.toPosition
      && Run(s, lookup, m).stepNumber == s.numSteps
      && Run(s, lookup, m + CatchupSteps).numSteps == s.numSteps
      && Run(s, lookup, m + CatchupSteps + 1).numSteps == 0
      && Run(s, lookup, m + CatchupSteps + 1).currentPosition == s.toPosition
  {
    var m := if s.fromPosition == s.toPosition then 1 else s.numSteps;
    var first := UpdatePosition(s, lookup).data;
    assert Run(s, lookup, 1) == first;
    RunAdd(s, lookup, 1, m - 1);
    AnimatingReachesEnd(first, lookup);
    var atEnd := Run(s, lookup, m);
    assert atEnd.currentPosition == s.toPosition by {
      if first.stepNumber == first.numSteps {
        assert atEnd == first;
      }
    }
    SettlingThenIdle(atEnd, lookup, CatchupSteps);
    RunAdd(s, lookup, m, CatchupSteps);
    var settled := Run(s, lookup, m + CatchupSteps);
    RunAdd(s, lookup, m + CatchupSteps, 1);
    assert Run(settled, lookup, 1) == UpdatePosition(settled, lookup).data;
  }

  /** Source defect: servo_functions.cpp:52 stores the ADDRESS of the bounce
      entry in a byte rather than the entry, so the value used is the low
      byte of `table address + step`. */
  function BounceLookupAsWritten(tableAddress: nat, step: nat): (v: byte)
    ensures v == (tableAddress + step) % 256
  {
    (tableAddress + step) % 256
  }

  /** Wherever the table sits in memory, the as-written lookup disagrees
      with the table: entries 13 and 14 are both 60, while their addresses
      differ in the low byte. */
  lemma BounceLookupAsWrittenDiverges(tableAddress: nat)
    ensures BounceLookupAsWritten(tableAddress, 13) != BounceProfile[13]
         || BounceLookupAsWritten(tableAddress, 14) != BounceProfile[14]
  {
    assert BounceProfile[13] == 60 && BounceProfile[14] == 60;
  }

  /** As written, a bounce animation whose table sits at an address with
      low byte 199 (0xC7) takes 200 as its first percentage: from 0 to 100
      it writes position 200, outside the travel. */
  lemma BounceAsWrittenLeavesRange()
    ensures var s := ServoData(0, 0, 100, Profile(Bounce, false), 0, 29);
      var r := UpdatePosition(s, AddressLowByte(199));
      && TableFits(s)
      && r.written == Some(200)
      && !Between(s.fromPosition, s.toPosition, r.data.currentPosition)
  {
    var s := ServoData(0, 0, 100, Profile(Bounce, false), 0, 29);
    assert BounceLookupAsWritten(199, 1) == 200;
    assert ArduinoMap(200, 0, 100, 0, 100) == 200;
  }
}

=== FILE: super_pin.dfy ===
/** Software PWM generators. Each generator counts ticks down and flips its
    pin when the count runs out: HIGH for `onCount` ticks, LOW for
    `offCount` ticks. A count of zero on one side locks the pin on the
    other side. The generators form a chain, newest first, with at most one
    generator per pin. */
module SuperPin {
  import opened Bytes
  import opened Options
  import opened Hardware

  /** One generator; `high` is the source's `pinState`. */
  datatype Generator = Generator(pinId: byte, onCount: byte, offCount: byte, runningCount: byte, high: bool)

  /** A generator after an operation, with the pin calls it made. */
  datatype GenStep = GenStep(gen: Generator, events: seq<Event>)

  /** The chain after an operation; index 0 is the head of the chain. */
  datatype ChainStep = ChainStep(gens: seq<Generator>, events: seq<Event>)

  predicate UniqueIds(gens: seq<Generator>) {
    forall i, j :: 0 <= i < j < |gens| ==> gens[i].pinId != gens[j].pinId
  }

  /** The levels written to pin `p`, in order. */
  function Levels(events: seq<Event>, p: byte): (r: seq<bool>)
    ensures |r| <= |events|
  {
    if |events| == 0 then []
    else
      var e := events[|events| - 1];
      Levels(events[..|events| - 1], p) + (if e.DigitalWrite? && e.physicalPin == p then [e.high] else [])
  }

  lemma {:induction false} LevelsAppend(a: seq<Event>, b: seq<Event>, p: byte)
    ensures Levels(a + b, p) == Levels(a, p) + Levels(b, p)
    decreases |b|
  {
    if |b| == 0 {
      assert a + b == a;
    } else {
      assert (a + b)[..|a + b| - 1] == a + b[..|b| - 1];
      LevelsAppend(a, b[..|b| - 1], p);
    }
  }

  /** The level pin `p` was last driven to, if it was driven at all. */
  function LastLevel(events: seq<Event>, p: byte): Option<bool> {
    var l := Levels(events, p);
    if |l| == 0 then None else Some(l[|l| - 1])
  }

  /** A new generator, locked LOW, chained in at the head; its pin becomes
      an output driven LOW. */
  function Construct(gens: seq<Generator>, pinId: byte): (r: ChainStep)
    ensures |r.gens| == |gens| + 1 && r.gens[1..] == gens
    ensures r.gens[0] == Generator(pinId, 0, 255, 255, false) && Locked(r.gens[0], false)
    ensures r.events == [PinModeOutput(pinId), DigitalWrite(pinId, false)]
    ensures LastLevel(r.events, pinId) == Some(false)
  {
    ChainStep([Generator(pinId, 0, 255, 255, false)] + gens, [PinModeOutput(pinId), DigitalWrite(pinId, false)])
  }

  /** Until a pattern is set, a new generator never writes its pin again,
      however often it ticks: its pin stays at the LOW the constructor
      wrote. */
  lemma ConstructedIsSilent(gens: seq<Generator>, pinId: byte, k: nat)
    ensures var c := Construct(gens, pinId);
      && Levels(TickN(c.gens[0], k).events, pinId) == []
      && LastLevel(c.events + TickN(c.gens[0], k).events, pinId) == Some(false)
  {
    var c := Construct(gens, pinId);
    LockedIsSilent(c.gens[0], false, k);
    LevelsAppend(c.events, TickN(c.gens[0], k).events, pinId);
  }

  /** The record update the instance `setPattern` makes: new counts, the
      count-down cleared, the state LOW. */
  function Pattern(g: Generator, on: byte, off: byte): (r: Generator)
    ensures r.pinId == g.pinId && r.onCount == on && r.offCount == off
    ensures r.runningCount == 0 && !r.high
  {
    g.(onCount := on, offCount := off, runningCount := 0, high := false)
  }

  /** The instance `setPattern` as written: the state becomes LOW but the
      pin itself is not written. */
  function SetPatternOfAsWritten(g: Generator, on: byte, off: byte): (r: GenStep)
    ensures r.gen == Pattern(g, on, off) && Levels(r.events, g.pinId) == []
  {
    GenStep(Pattern(g, on, off), [])
  }

  /** The instance `setPattern` with the pin driven LOW to match the state
      it records, so that the pin level always agrees with `high`. */
  function SetPatternOf(g: Generator, on: byte, off: byte): (r: GenStep)
    ensures r.gen == Pattern(g, on, off) && LastLevel(r.events, g.pinId) == Some(false)
  {
    GenStep(Pattern(g, on, off), [DigitalWrite(g.pinId, false)])
  }

  /** The position of the generator for `pinId`, if the chain has one. */
  function IndexOf(gens: seq<Generator>, pinId: byte): (r: Option<nat>)
    ensures r.Some? ==> r.value < |gens| && gens[r.value].pinId == pinId
    ensures r.Some? ==> forall k :: 0 <= k < r.value ==> gens[k].pinId != pinId
    ensures r.None? <==> forall k :: 0 <= k < |gens| ==> gens[k].pinId != pinId
    decreases |gens|
  {
    if |gens| == 0 then None
    else if gens[0].pinId == pinId then Some(0)
    else match IndexOf(gens[1..], pinId)
      case None => None
      case Some(i) => Some(i + 1)
  }

  /** The static `setPattern`: the generator for `pinId` is updated in place,
      or, when there is none, one is constructed and then updated.
      `driveLow` chooses the corrected instance update over the one as
      written. */
  function SetPatternIn(gens: seq<Generator>, pinId: byte, on: byte, off: byte, driveLow: bool): (r: ChainStep)
    ensures IndexOf(gens, pinId).Some? ==>
      var i := IndexOf(gens, pinId).value;
      && |r.gens| == |gens|
      && r.gens[i] == Generator(pinId, on, off, 0, false)
      && (forall k :: 0 <= k < |gens| && k != i ==> r.gens[k] == gens[k])
    ensures IndexOf(gens, pinId).None? ==>
      r.gens == [Generator(pinId, on, off, 0, false)] + gens
    ensures UniqueIds(gens) ==> UniqueIds(r.gens)
    ensures IndexOf(r.gens, pinId).Some? && r.gens[IndexOf(r.gens, pinId).value] == Generator(pinId, on, off, 0, false)
    ensures driveLow ==> LastLevel(r.events, pinId) == Some(false)
    ensures !driveLow && IndexOf(gens, pinId).Some? ==> Levels(r.events, pinId) == []
  {
    match IndexOf(gens, pinId)
    case Some(i) =>
      var s := if driveLow then SetPatternOf(gens[i], on, off) else SetPatternOfAsWritten(gens[i], on, off);
      ChainStep(gens[i := s.gen], s.events)
    case None =>
      var c := Construct(gens, pinId);
      var s := if driveLow then SetPatternOf(c.gens[0], on, off) else SetPatternOfAsWritten(c.gens[0], on, off);
      LevelsAppend(c.events, s.events, pinId);
      ChainStep(c.gens[0 := s.gen], c.events + s.events)
  }

  function SetPattern(gens: seq<Generator>, pinId: byte, on: byte, off: byte): ChainStep {
    SetPatternIn(gens, pinId, on, off, true)
  }

  /** A steady level: HIGH is the pattern (255 on, 0 off), LOW is (0 on,
      255 off). */
  function Counts(high: bool): (byte, byte) {
    if high then (255, 0) else (0, 255)
  }

  /** The static `set`: the pin's generator gets the steady pattern of
      the level asked for, with the pin driven LOW until it first ticks. */
  function Set(gens: seq<Generator>, pinId: byte, high: bool): (r: ChainStep)
    ensures IndexOf(r.gens, pinId).Some?
    ensures r.gens[IndexOf(r.gens, pinId).value] ==
      (if high then Generator(pinId, 255, 0, 0, false) else Generator(pinId, 0, 255, 0, false))
    ensures UniqueIds(gens) ==> UniqueIds(r.gens)
    ensures LastLevel(r.events, pinId) == Some(false)
  {
    SetPattern(gens, pinId, Counts(high).0, Counts(high).1)
  }

  /** The static `set` as written: the same generator update, but a pin
      that already has a generator is not written at all. */
  function SetAsWritten(gens: seq<Generator>, pinId: byte, high: bool): (r: ChainStep)
    ensures IndexOf(r.gens, pinId).Some?
    ensures r.gens[IndexOf(r.gens, pinId).value] ==
      (if high then Generator(pinId, 255, 0, 0, false) else Generator(pinId, 0, 255, 0, false))
    ensures UniqueIds(gens) ==> UniqueIds(r.gens)
    ensures IndexOf(gens, pinId).Some? ==> Levels(r.events, pinId) == []
  {
    SetPatternIn(gens, pinId, Counts(high).0, Counts(high).1, false)
  }

  /** One tick of one generator. A running count is only decremented. When
      it has run out the pin flips and is written, unless the other side's
      count is zero, in which case the pin is locked where it is, the count
      reloads, and nothing is written. */
  function Tick(g: Generator): (r: GenStep)
    ensures r.gen.pinId == g.pinId && r.gen.onCount == g.onCount && r.gen.offCount == g.offCount
    ensures g.runningCount > 0 ==> r.gen == g.(runningCount := g.runningCount - 1) && r.events == []
    ensures g.runningCount == 0 && g.high && g.offCount == 0 ==>
      r.gen == g.(runningCount := g.onCount) && r.events == []
    ensures g.runningCount == 0 && !g.high && g.onCount == 0 ==>
      r.gen == g.(runningCount := g.offCount) && r.events == []
    ensures r.events == [] || r.events == [DigitalWrite(g.pinId, r.gen.high)]
    ensures r.events != [] <==> r.gen.high != g.high
  {
    if g.runningCount > 0 then
      GenStep(g.(runningCount := g.runningCount - 1), [])
    else if g.high then
      if g.offCount == 0 then GenStep(g.(runningCount := g.onCount), [])
      else GenStep(g.(runningCount := g.offCount - 1, high := false), [DigitalWrite(g.pinId, false)])
    else
      if g.onCount == 0 then GenStep(g.(runningCount := g.offCount), [])
      else GenStep(g.(runningCount := g.onCount - 1, high := true), [DigitalWrite(g.pinId, true)])
  }

  /** Ticks every generator of the chain once, head first. */
  function Loop(gens: seq<Generator>): (r: ChainStep)
    ensures |r.gens| == |gens|
    ensures forall i :: 0 <= i < |gens| ==> r.gens[i] == Tick(gens[i]).gen
    decreases |gens|
  {
    if |gens| == 0 then ChainStep([], [])
    else
      var h := Tick(gens[0]);
      var rest := Loop(gens[1..]);
      ChainStep([h.gen] + rest.gens, h.events + rest.events)
  }

  /** In a chain with one generator per pin, the pin of generator `i` is
      written during a loop exactly as that generator's tick writes it. */
  lemma {:induction false} LoopLevels(gens: seq<Generator>, i: nat)
    requires UniqueIds(gens) && i < |gens|
    ensures Levels(Loop(gens).events, gens[i].pinId) == Levels(Tick(gens[i]).events, gens[i].pinId)
    decreases |gens|
  {
    var p := gens[i].pinId;
    var h := Tick(gens[0]);
    var rest := Loop(gens[1..]);
    LevelsAppend(h.events, rest.events, p);
    if i == 0 {
      NoOtherLevels(gens[1..], p);
    } else {
      assert Levels(h.events, p) == [] by {
        if h.events != [] {
          assert h.events == [DigitalWrite(gens[0].pinId, h.gen.high)];
          assert h.events[..0] == [];
        }
      }
      LoopLevels(gens[1..], i - 1);
    }
  }

  /** A loop over generators for other pins never writes `p`. */
  lemma {:induction false} NoOtherLevels(gens: seq<Generator>, p: byte)
    requires forall k :: 0 <= k < |gens| ==> gens[k].pinId != p
    ensures Levels(Loop(gens).events, p) == []
    decreases |gens|
  {
    if |gens| > 0 {
      var h := Tick(gens[0]);
      LevelsAppend(h.events, Loop(gens[1..]).events, p);
      if h.events != [] {
        assert h.events[..0] == [];
      }
      NoOtherLevels(gens[1..], p);
    }
  }

  /** `k` loops, with the pin calls of all of them. */
  function RunLoop(gens: seq<Generator>, k: nat): (r: ChainStep)
    ensures |r.gens| == |gens|
    decreases k
  {
    if k == 0 then ChainStep(gens, [])
    else
      var a := RunLoop(gens, k - 1);
      var b := Loop(a.gens);
      ChainStep(b.gens, a.events + b.events)
  }

  /** `k` ticks of one generator, with its pin calls. */
  function TickN(g: Generator, k: nat): (r: GenStep)
    ensures r.gen.pinId == g.pinId && r.gen.onCount == g.onCount && r.gen.offCount == g.offCount
    decreases k
  {
    if k == 0 then GenStep(g, [])
    else
      var a := TickN(g, k - 1);
      var b := Tick(a.gen);
      GenStep(b.gen, a.events + b.events)
  }

  /** A loop keeps every generator's pin, so ids stay unique. */
  lemma LoopKeepsIds(gens: seq<Generator>)
    requires UniqueIds(gens)
    ensures UniqueIds(Loop(gens).gens)
  {
    var b := Loop(gens);
    forall x, y | 0 <= x < y < |b.gens| ensures b.gens[x].pinId != b.gens[y].pinId {
      assert b.gens[x].pinId == gens[x].pinId && b.gens[y].pinId == gens[y].pinId;
    }
  }

  /** Within a chain with one generator per pin, `k` loops move generator
      `i` as `k` ticks of it alone, and write its pin as those ticks do. */
  lemma {:induction false} RunLoopFollowsTicks(gens: seq<Generator>, i: nat, k: nat)
    requires UniqueIds(gens) && i < |gens|
    ensures UniqueIds(RunLoop(gens, k).gens)
    ensures RunLoop(gens, k).gens[i] == TickN(gens[i], k).gen
    ensures Levels(RunLoop(gens, k).events, gens[i].pinId) == Levels(TickN(gens[i], k).events, gens[i].pinId)
    decreases k
  {
    if k > 0 {
      var p := gens[i].pinId;
      RunLoopFollowsTicks(gens, i, k - 1);
      var a := RunLoop(gens, k - 1);
      var t := TickN(gens[i], k - 1);
      var b := Loop(a.gens);
      var u := Tick(t.gen);
      assert a.gens[i] == t.gen;
      assert RunLoop(gens, k) == ChainStep(b.gens, a.events + b.events);
      assert TickN(gens[i], k) == GenStep(u.gen, t.events + u.events);
      assert a.gens[i].pinId == p;
      assert Levels(RunLoop(gens, k).events, p) == Levels(TickN(gens[i], k).events, p) by {
        LoopLevels(a.gens, i);
        LevelsAppend(a.events, b.events, p);
        LevelsAppend(t.events, u.events, p);
      }
      LoopKeepsIds(a.gens);
    }
  }

  /** A generator held at `high`: its pin state is `high` and the opposite
      side's count is zero. */
  predicate Locked(g: Generator, high: bool) {
    g.high == high && (if high then g.offCount == 0 else g.onCount == 0)
  }

  /** A locked generator stays locked and never writes its pin. */
  lemma {:induction false} LockedIsSilent(g: Generator, high: bool, k: nat)
    requires Locked(g, high)
    ensures Locked(TickN(g, k).gen, high) && Levels(TickN(g, k).events, g.pinId) == []
    decreases k
  {
    if k > 0 {
      LockedIsSilent(g, high, k - 1);
      var a := TickN(g, k - 1);
      LevelsAppend(a.events, Tick(a.gen).events, g.pinId);
    }
  }

  /** With the corrected update, `set(p, high)` followed by `k` loops leaves
      the last level written to `p` equal to `high`: at once for LOW, and
      from the first loop on for HIGH. */
  lemma SetHoldsLevel(gens: seq<Generator>, p: byte, high: bool, k: nat)
    requires UniqueIds(gens)
    requires high ==> k >= 1
    ensures LastLevel(Set(gens, p, high).events + RunLoop(Set(gens, p, high).gens, k).events, p) == Some(high)
  {
    var s := Set(gens, p, high);
    var i := IndexOf(s.gens, p).value;
    var g := s.gens[i];
    RunLoopFollowsTicks(s.gens, i, k);
    LevelsAppend(s.events, RunLoop(s.gens, k).events, p);
    if high {
      HighLevelsAfterTicks(g, p, k);
    } else {
      LockedIsSilent(g, false, k);
    }
  }

  /** A generator just set HIGH (running count zero, state LOW, off count
      zero) writes HIGH on its first tick and nothing after. */
  lemma HighLevelsAfterTicks(g: Generator, p: byte, k: nat)
    requires g.pinId == p && g.runningCount == 0 && !g.high && g.offCount == 0 && g.onCount > 0
    requires k >= 1
    ensures Levels(TickN(g, k).events, p) == [true]
  {
    var first := Tick(g);
    assert Locked(first.gen, true) && Levels(first.events, p) == [true] by {
      assert first.events == [DigitalWrite(p, true)];
      assert first.events[..0] == [];
    }
    SplitFirstTick(g, k);
    LockedIsSilent(first.gen, true, k - 1);
    LevelsAppend(first.events, TickN(first.gen, k - 1).events, p);
  }

  /** `k` ticks are one tick followed by `k - 1` more. */
  lemma {:induction false} SplitFirstTick(g: Generator, k: nat)
    requires k >= 1
    ensures TickN(g, k).gen == TickN(Tick(g).gen, k - 1).gen
    ensures TickN(g, k).events == Tick(g).events + TickN(Tick(g).gen, k - 1).events
    decreases k
  {
    if k > 1 {
      SplitFirstTick(g, k - 1);
    }
  }

  /** As written, `set(p, false)` after `set(p, true)` and one loop never
      drives the pin LOW again: the generator records LOW, but no call
      writes the pin, which stays HIGH however many loops follow. */
  lemma SetLowAfterHighAsWritten(p: byte, k: nat)
    ensures
      var a := SetAsWritten([], p, true);
      var b := Loop(a.gens);
      var c := SetAsWritten(b.gens, p, false);
      var d := RunLoop(c.gens, k);
      && |d.gens| == 1 && !d.gens[0].high
      && LastLevel(a.events + b.events + c.events + d.events, p) == Some(true)
  {
    var a := SetAsWritten([], p, true);
    var b := Loop(a.gens);
    var c := SetAsWritten(b.gens, p, false);
    var d := RunLoop(c.gens, k);
    var prefix := a.events + b.events + c.events;
    AsWrittenPrefix(p);
    RunLoopFollowsTicks(c.gens, 0, k);
    LockedIsSilent(c.gens[0], false, k);
    LevelsAppend(prefix, d.events, p);
    assert Levels(prefix + d.events, p) == Levels(prefix, p);
  }

  /** The first three steps of the scenario above: HIGH is written, then
      the generator is reset to LOW with no write. */
  lemma AsWrittenPrefix(p: byte)
    ensures
      var a := SetAsWritten([], p, true);
      var b := Loop(a.gens);
      var c := SetAsWritten(b.gens, p, false);
      && c.gens == [Generator(p, 0, 255, 0, false)]
      && Levels(a.events + b.events + c.events, p) == [false, true]
  {
    var a := SetAsWritten([], p, true);
    var b := Loop(a.gens);
    var c := SetAsWritten(b.gens, p, false);
    assert a.gens == [Generator(p, 255, 0, 0, false)];
    assert a.events == [PinModeOutput(p), DigitalWrite(p, false)];
    assert Tick(a.gens[0]).events == [DigitalWrite(p, true)];
    assert Loop(a.gens[1..]).events == [];
    assert b.events == [DigitalWrite(p, true)];
    assert c.gens == [Generator(p, 0, 255, 0, false)] && c.events == [];
    assert Levels(a.events, p) == [false] by {
      assert a.events[..1] == [PinModeOutput(p)];
      assert a.events[..1][..0] == [];
    }
    assert Levels(b.events, p) == [true] by {
      assert b.events[..0] == [];
    }
    LevelsAppend(a.events, b.events, p);
    LevelsAppend(a.events + b.events, c.events, p);
  }

  /** The state a generator with counts `on`, `off` (both non-zero) is in
      at position `j` of its period: HIGH for positions below `on`, and
      the count-down says how many ticks remain before the next flip. */
  function Cycle(pinId: byte, on: byte, off: byte, j: nat): Generator
    requires on > 0 && off > 0 && j < on + off
  {
    if j < on then Generator(pinId, on, off, on - 1 - j, true)
    else Generator(pinId, on, off, on + off - 1 - j, false)
  }

  /** One tick moves one position along the period, writing HIGH on
      entering position 0 and LOW on entering position `on`. */
  lemma CycleTick(pinId: byte, on: byte, off: byte, j: nat)
    requires on > 0 && off > 0 && j < on + off
    ensures var n := if j + 1 == on + off then 0 else j + 1;
      && Tick(Cycle(pinId, on, off, j)).gen == Cycle(pinId, on, off, n)
      && (Tick(Cycle(pinId, on, off, j)).events != [] <==> n == 0 || n == on as int)
  {
  }

  /** Position along a period of `period` ticks after tick `t`, counting
      tick 1 as position 0. */
  function Position(period: nat, t: nat): (r: nat)
    requires period > 0 && t >= 1
    ensures r < period
    decreases t
  {
    if t == 1 then 0
    else
      var q := Position(period, t - 1);
      if q + 1 == period then 0 else q + 1
  }

  /** The first period counts up from position 0. */
  lemma {:induction false} PositionRamp(period: nat, t: nat)
    requires 1 <= t <= period
    ensures Position(period, t) == t - 1
    decreases t
  {
    if t > 1 {
      PositionRamp(period, t - 1);
    }
  }

  /** Positions repeat every `period` ticks. */
  lemma {:induction false} PositionRepeats(period: nat, t: nat)
    requires period > 0 && t >= 1
    ensures Position(period, t + period) == Position(period, t)
    decreases t
  {
    if t == 1 {
      PositionRamp(period, period);
    } else {
      PositionRepeats(period, t - 1);
    }
  }

  /** After `setPattern(on, off)` with both counts non-zero, each tick
      moves the generator one position along its period. */
  lemma {:induction false} TicksFollowPositions(g: Generator, on: byte, off: byte, t: nat)
    requires on > 0 && off > 0 && t >= 1
    ensures TickN(Pattern(g, on, off), t).gen == Cycle(g.pinId, on, off, Position(on + off, t))
    decreases t
  {
    if t > 1 {
      TicksFollowPositions(g, on, off, t - 1);
      CycleTick(g.pinId, on, off, Position(on + off, t - 1));
      TickNext(Pattern(g, on, off), t - 1);
    }
  }

  /** After `setPattern(on, off)` with both counts non-zero, the pin is
      HIGH after ticks 1 to `on` and LOW after ticks `on + 1` to
      `on + off`, and the pattern repeats every
      `on + off` ticks. */
  lemma PatternIsPeriodic(g: Generator, on: byte, off: byte, t: nat)
    requires on > 0 && off > 0 && t >= 1
    ensures t <= on + off ==>
      && TickN(Pattern(g, on, off), t).gen == Cycle(g.pinId, on, off, t - 1)
      && (TickN(Pattern(g, on, off), t).gen.high <==> t <= on as int)
    ensures TickN(Pattern(g, on, off), t + on + off).gen == TickN(Pattern(g, on, off), t).gen
  {
    TicksFollowPositions(g, on, off, t);
    TicksFollowPositions(g, on, off, t + on + off);
    PositionRepeats(on + off, t);
    if t <= on + off {
      PositionRamp(on + off, t);
    }
  }

  lemma TickNext(g: Generator, t: nat)
    ensures TickN(g, t + 1).gen == Tick(TickN(g, t).gen).gen
  {
  }
}

=== FILE: test_modes.dfy ===
/** The console's pin test modes. Enabling a mode first switches the other
    three off (each of which resets every pin), then claims every pin of
    the mode's capability with a fixed configuration. Disabling a mode
    clears its flag and diagnostics and resets every pin. */
module TestModes {
  import opened Bytes
  import opened PinMap
  import opened PinIo
  import opened Globals

  datatype TestKind = AnalogueTest | InputTest | OutputTest | PullupTest

  function Flag(t: TestFlags, k: TestKind): bool {
    match k
    case AnalogueTest => t.analogue
    case InputTest => t.input
    case OutputTest => t.output
    case PullupTest => t.pullup
  }

  function WithFlag(t: TestFlags, k: TestKind, on: bool): (r: TestFlags)
    ensures Flag(r, k) == on
    ensures forall j :: j != k ==> Flag(r, j) == Flag(t, j)
  {
    match k
    case AnalogueTest => t.(analogue := on)
    case InputTest => t.(input := on)
    case OutputTest => t.(output := on)
    case PullupTest => t.(pullup := on)
  }

  /** The other three modes, in the order the source switches them off. */
  function Others(k: TestKind): seq<TestKind> {
    match k
    case AnalogueTest => [InputTest, OutputTest, PullupTest]
    case InputTest => [AnalogueTest, OutputTest, PullupTest]
    case OutputTest => [AnalogueTest, InputTest, PullupTest]
    case PullupTest => [AnalogueTest, OutputTest, InputTest]
  }

  /** The capability bit a mode claims pins by. */
  function Claims(k: TestKind): nat {
    match k
    case AnalogueTest => AnalogueInput
    case InputTest => DigitalInput
    case OutputTest => DigitalOutput
    case PullupTest => DigitalInput
  }

  /** The record a claimed pin gets. The output mode stores the capability
      bit index `DigitalOutput` as the pin's mode, as the source does. */
  function Preset(k: TestKind): PinConfig {
    match k
    case AnalogueTest => PinConfig(true, ModeAnalogue, true, false)
    case InputTest => PinConfig(true, ModeDigital, true, false)
    case OutputTest => PinConfig(true, DigitalOutput, false, false)
    case PullupTest => PinConfig(true, ModeDigital, true, true)
  }

  /** The claiming loop over the first `numPins` pins, applied to pins that
      were just reset. The analogue and output loops leave `pullup` alone,
      which after a reset is off, so a claimed pin is exactly `Preset(k)`. */
  function ClaimPins(pinMap: seq<PinDefinition>, numPins: byte, pins: seq<PinConfig>, k: TestKind): (r: seq<PinConfig>)
    requires |pins| == |pinMap|
    ensures |r| == |pins|
    ensures forall p :: 0 <= p < |pins| ==>
      r[p] == if p < numPins as int && Can(pinMap[p], Claims(k)) then Preset(k).(pullup := PullupAfter(k, pins[p])) else pins[p]
  {
    seq(|pins|, p requires 0 <= p < |pins| =>
      if p < numPins as int && Can(pinMap[p], Claims(k)) then Preset(k).(pullup := PullupAfter(k, pins[p])) else pins[p])
  }

  /** The input and pullup loops set `pullup`; the other two keep it. */
  function PullupAfter(k: TestKind, pc: PinConfig): bool {
    match k
    case InputTest => false
    case PullupTest => true
    case _ => pc.pullup
  }

  /** `testX(enable)`. Enabling calls the disabling variant of each other
      mode, which does not recurse further: the call depth is at most two,
      which is what the termination measure states. */
  function Test(d: Device, k: TestKind, enable: bool): (r: Device)
    requires Valid(d)
    ensures Valid(r) && SameBoard(d, r) && r.firstVpin == d.firstVpin
    ensures !enable ==>
      && !Flag(r.testing, k) && (forall j :: j != k ==> Flag(r.testing, j) == Flag(d.testing, j))
      && !r.diag && r.setupComplete == d.setupComplete
      && StoreIsReset(d.pinMap, r.store)
    decreases if enable then 1 else 0
  {
    if !enable then
      d.(testing := WithFlag(d.testing, k, false), diag := false, store := InitialisePins(d.pinMap, d.store))
    else
      var others := Others(k);
      var d1 := Test(d.(setupComplete := true), others[0], false);
      var d2 := Test(d1, others[1], false);
      var d3 := Test(d2, others[2], false);
      var d4 := d3.(diag := true, testing := WithFlag(d3.testing, k, true));
      d4.(store := d4.store.(pins := ClaimPins(d4.pinMap, d4.numPins, d4.store.pins, k)))
  }

  /** After `testX(true)`: exactly the one flag is set, diagnostics are on
      and setup counts as complete. */
  lemma EnableSetsFlag(d: Device, k: TestKind)
    requires Valid(d)
    ensures var r := Test(d, k, true);
      && Flag(r.testing, k) && (forall j :: j != k ==> !Flag(r.testing, j))
      && r.diag && r.setupComplete
  {
    forall j | j != k ensures !Flag(Test(d, k, true).testing, j) {
      OthersCover(k, j);
    }
  }

  /** After `testX(true)`: every pin of the mode's capability among the
      first `numPins` holds the mode's preset record, every other pin is in
      its reset state, and both state buffers are zero. */
  lemma EnableClaims(d: Device, k: TestKind)
    requires Valid(d)
    ensures var r := Test(d, k, true);
      && (forall p :: 0 <= p < |d.pinMap| ==>
           if p < d.numPins as int && Can(d.pinMap[p], Claims(k)) then r.store.pins[p] == Preset(k)
           else IsReset(d.pinMap[p], r.store.pins[p]))
      && (forall b :: 0 <= b < |r.store.digitalStates| ==> r.store.digitalStates[b] == 0)
      && (forall b :: 0 <= b < |r.store.analogueStates| ==> r.store.analogueStates[b] == 0)
  {
    var others := Others(k);
    var d1 := Test(d.(setupComplete := true), others[0], false);
    var d2 := Test(d1, others[1], false);
    var d3 := Test(d2, others[2], false);
    assert StoreIsReset(d.pinMap, d3.store);
  }

  /** Every mode but `k` is among the three `k` switches off. */
  lemma OthersCover(k: TestKind, j: TestKind)
    requires j != k
    ensures j == Others(k)[0] || j == Others(k)[1] || j == Others(k)[2]
  {
  }

  /** The output test stores the capability bit index `DigitalOutput` as
      the pin's mode. With the mode numbering of this model that value is
      none of the pin modes, so a claimed pin fails the digital-write claim
      check, which wants `ModeDigital`. */
  lemma OutputTestModeIsNotAMode(d: Device, p: nat)
    requires Valid(d) && p < d.numPins as int && Can(d.pinMap[p], DigitalOutput)
    ensures var pc := Test(d, OutputTest, true).store.pins[p];
      && pc.enable && !pc.isInput
      && pc.mode == DigitalOutput
      && pc.mode !in {ModeUnused, ModeDigital, ModeAnalogue, ModePwm}
  {
    EnableClaims(d, OutputTest);
  }

  predicate AnyTesting(d: Device) {
    d.testing.Any()
  }

  /** `testServo`'s guard: refused once the host has configured the device
      (`firstVpin > 0`) or while any pin test mode is on; otherwise setup
      counts as complete and the servo write goes ahead, which is reported
      by the second component. */
  function TestServo(d: Device): (r: (Device, bool))
    ensures d.firstVpin > 0 || AnyTesting(d) ==> r.0 == d && !r.1
    ensures d.firstVpin == 0 && !AnyTesting(d) ==> r.0 == d.(setupComplete := true) && r.1
  {
    if d.firstVpin > 0 || AnyTesting(d) then (d, false)
    else (d.(setupComplete := true), true)
  }
}
